=== FILE: README.md ===
# Judge rule engine — a Dafny model

Judge is a Python rule engine. It runs in three stages:

1. A *data structure* extracts named *attributes* from an input record, or from each row of a dataframe. An attribute has a path of subscripts, a target type, a default, a priority and an optional chain of transform functions. The data structure then runs *expressions*, code snippets that may rewrite the attribute map.
2. Each *decision table* is a set of rules. A rule's non-empty cells are conditions on one attribute each. The rule holds when all of them hold.
3. A *collection* runs its configured tables, each of which may be inactive, run exhaustively or stop at the first match, carry a score override, and carry a manual flag. The collection aggregates the hits, scores and rule audit trail. `rule_engine.run` runs every active collection in ascending priority and keys the results by collection name.

The model follows `judge/rule_engine.py` and `functions.py` as written:

| file | module | models |
|---|---|---|
| `base.dfy` | `Base` | Shared types: `Option` (for "raised"), Python values, path keys. `Host` bundles the dynamic parts: type coercion, transform calls, `exec`, `eval`. |
| `paths.dfy` | `Paths` | `reduce(operator.getitem, path, data)`: Python subscripting of dicts, lists and strings, with negative indices and the exception kinds. |
| `priority.dfy` | `Priority` | The stable sort on `(priority is None, priority)`. |
| `registry.dfy` | `Registry` | Replace-by-name and remove-by-name on definition lists. |
| `data_structure.dfy` | `DataStructure` | Attributes, expressions, and their add and remove operations. |
| `extraction.dfy` | `Extraction` | `apply_functions` and both branches of `extract_attributes`. |
| `decision_table.dfy` | `DecisionTable` | `apply_decision_table`. |
| `collection.dfy` | `Collections` | `collection.apply_collection`. |
| `engine.dfy` | `Engine` | `rule_engine.run` in both modes, and the collection list edits. |
| `functions.dfy` | `Functions` | `concat`, `add`, `cabin`. |
| `scenarios.dfy` | `Scenarios` | Worked instances of the evaluation modes and the score override. |

The behaviour modelled is the code's, including where it departs from the engine's own description of itself:

- **Failing conditions.** A condition that raises does not count as a non-match. This covers a missing column, a condition whose evaluation raises, and extraction having returned `None`. The exception escapes to the table's handler, so the table returns `None`. `apply_collection` then subscripts that `None`, and `run` catches the resulting error, so the whole run yields `None`.
- **Stop-at-first-match audit.** Without `Execute All Rules`, a table audits only the first matching rule; the non-matching rules before it are not recorded.
- **`rule_hits`.** This is the length of the concatenated rule audits of the hit tables. With `Execute All Rules` that includes rules that did not match.
- **Missing configuration or tables.** A collection without an imported configuration, a missing table registry, or a configured table name absent from the registry all raise. A raise aborts the run; it does not just skip that collection.
- **Record-mode fallback handler.** On a failure, the handler prints `'.'.join(path)` before it computes the default. So a path holding an integer subscript, or a default whose coercion raises, makes the handler itself raise, and the whole extraction returns `None`. That `None` is then handed to the collections as their data. (`Extraction.RecordValue`, `Extraction.Joinable`)
- **Dataframe-mode errors.** Only `KeyError` is handled. An empty cell also gives the default. Any other error aborts the extraction, and `run` then fails on `None.items()`.
- **Failing transforms.** A transform that raises makes `apply_functions` return `None`. The target type is then applied to `None`. In record mode the default is used only if that coercion raises.
- **Dataframe-mode output rows.** A row appears in the output only when some collection is active.

## Model

| member | source | states |
|---|---|---|
| Paths.PyIndex | judge/rule_engine.py:550 | An index is valid exactly when `-len <= i < len`, and it names position `i mod len`, as Python sequence indexing does. |
| Paths.Getitem | judge/rule_engine.py:550 | A dictionary subscript succeeds exactly when the key is present, and then yields the stored value. A list or string subscript yields the element at the Python index (negative indices count from the end), and raises `IndexError` exactly when that index is out of range. An integer subscript of a dictionary raises `KeyError`. A string subscript of a list or string, and any subscript of a scalar, raise `TypeError`. |
| Paths.LookupAppend | judge/rule_engine.py:550 | Looking up `p + q` is looking up `q` in the result of `p`; the first failure stops the walk. |
| Paths.LookupNest | judge/rule_engine.py:550 | A path of string keys finds the value nested under those keys. |
| Paths.MissingKeyRaisesKeyError | judge/rule_engine.py:507-512 | A path whose first key is missing from the record raises `KeyError`, which is the case the dataframe branch recovers from. |
| Priority.SortPermutes | judge/rule_engine.py:491 | Sorting by priority neither loses nor duplicates definitions (multiset equality). |
| Priority.SortSorts | judge/rule_engine.py:491 | The sorted list is ordered on `(priority is None, priority)`: prioritized items ascend, unprioritized ones follow. |
| Priority.SortIsStable | judge/rule_engine.py:491 | For every key value, the items carrying it keep their definition order, because the sort is stable. |
| Priority.UnprioritizedLast | judge/rule_engine.py:491 | In a sorted list nothing with a priority follows an item without one. |
| Priority.SortMembers | judge/rule_engine.py:1188 | The sorted collection list holds exactly the collections of the engine. |
| Priority.SortSpec | judge/rule_engine.py:491 | Everything the stable `sorted` promises at once: ascending key order, the same items, and definition order kept among items of one key. |
| Registry.Without | judge/rule_engine.py:182 | Filtering out a name keeps exactly the entries with another name. |
| Registry.CountNamed | judge/rule_engine.py:151 | The count of entries with a name is zero exactly when no entry carries it. |
| Registry.UpsertSpec | judge/rule_engine.py:151-157 | After an add, exactly one entry carries the name and it is the last one. The entries before it are the old ones without that name, in their order. |
| Registry.RemoveAfterUpsert | judge/rule_engine.py:151-157 | Removing a name after adding it equals removing it from the original list. |
| Registry.UpsertTwice | judge/rule_engine.py:151-157 | Adding twice under one name keeps only the second definition. |
| Registry.UpsertUnique | judge/rule_engine.py:151-157 | Adding keeps names unique. |
| Registry.WithoutUnique | judge/rule_engine.py:182 | Removing keeps names unique. |
| DataStructure.AddAttribute | judge/rule_engine.py:150-158 | The new attribute is last and is the only one of its name. The other attributes keep their order. The expressions are untouched. |
| DataStructure.RemoveAttribute | judge/rule_engine.py:181-183 | Every attribute of that name goes, every other one stays, and the expressions are untouched. |
| DataStructure.AddExpression | judge/rule_engine.py:277-287 | Without test data, as for attributes: the new expression is last and unique by name, and the rest keep their order. |
| DataStructure.RemoveExpression | judge/rule_engine.py:373-375 | Every expression of that name goes, every other one stays, and the attributes are untouched. |
| DataStructure.RemoveAbsentIsNoop | judge/rule_engine.py:181-183 | Removing a name nothing carries changes nothing. |
| DataStructure.EditsKeepValid | judge/rule_engine.py:150-183 | All four edits keep one definition per name. |
| DataStructure.RemoveUndoesAdd | judge/rule_engine.py:150-183 | Removing an attribute right after adding it leaves what removing it alone would. |
| DataStructure.LastAddWins | judge/rule_engine.py:150-158 | Re-adding under the same name keeps only the later definition. |
| Extraction.ApplyStepsLast | judge/rule_engine.py:443-453 | A chain is its prefix followed by the last call: the call runs on the prefix's output, and a raising prefix raises. |
| Extraction.ApplyStepsRaises | judge/rule_engine.py:441-454 | The chain raises exactly when some step raises on the value the steps before it produced. Otherwise every call succeeded in turn. |
| Extraction.ApplyStepsAppend | judge/rule_engine.py:443-453 | The chain is a left fold in dictionary order: running `s1 + s2` is running `s2` on the output of `s1`. |
| Extraction.FailingStepGivesNull | judge/rule_engine.py:441-457 | Whatever step raises, `apply_functions` returns `None` instead of raising. |
| Extraction.RecordValue | judge/rule_engine.py:545-563 | A successful lookup and coercion is stored. When the lookup fails or the coercion raises, the handler gives the coerced default on a printable path and raises otherwise. The value is always present when the path is printable and the default coerces. |
| Extraction.RowValue | judge/rule_engine.py:503-526 | A `KeyError` or an empty cell gives the default. Any other lookup error aborts. A present value is converted through the transforms and the target type. |
| Extraction.ExtractAttributes | judge/rule_engine.py:543-563 | Every attribute name becomes a key. The loop aborts exactly when some attribute's value computation raises. |
| Extraction.ExtractedValue | judge/rule_engine.py:543-563 | An attribute whose name is unique among those extracted is stored with its own value. |
| Extraction.ExtractedUntouched | judge/rule_engine.py:543-563 | Entries under names that no attribute carries are left alone. |
| Extraction.ApplyExpressions | judge/rule_engine.py:565-576 | When every expression raises, the map is unchanged. |
| Extraction.ApplyExpressionsAppend | judge/rule_engine.py:568-575 | Expressions run as an ordered fold over one shared map. |
| Extraction.ApplyExpressionsFirst | judge/rule_engine.py:568-573 | The first body runs on the input map. When it succeeds, the remaining expressions run on the map it left; when it raises, they run on the input. |
| Extraction.ExpressionStep | judge/rule_engine.py:567-575 | An expression anywhere in the list runs on the map the expressions before it left. Its writes, when it succeeds, are what the later expressions see. |
| Extraction.FailingExpressionSkipped | judge/rule_engine.py:570-575 | An expression that raises on the map reaching it is as if it were not configured. |
| Extraction.AttributeMap | judge/rule_engine.py:491-563 | After the priority sort the keys are exactly the attribute names. It aborts exactly when one attribute's value computation raises. |
| Extraction.AttributeMapValues | judge/rule_engine.py:491-563 | In a structure with unique names, each attribute's key holds that attribute's value. |
| Extraction.RecordExtractionTotal | judge/rule_engine.py:545-563 | One attribute's failure does not stop the others. With printable paths and coercible defaults, the record branch never aborts and yields every attribute name. |
| Extraction.Extract | judge/rule_engine.py:487-578 | Extraction aborts exactly when an attribute's value computation raises. Otherwise the result is the attribute map with every expression run over it as one fold, in the order of the stable priority sort (`Priority.SortSpec`). Without expressions, the keys are exactly the attribute names. |
| Extraction.ExtractFrame | judge/rule_engine.py:494-541 | Every row index is a key, and each row holds its own extraction. One raising cell lookup aborts the whole call. |
| DecisionTable.TallySpec | judge/rule_engine.py:1357-1366 | Only non-empty cells are counted. The held count equals the counted one exactly when every such cell checks true. Any raising cell aborts. |
| DecisionTable.RuleMatchesSpec | judge/rule_engine.py:1357-1368 | A rule matches exactly when all its non-empty conditions hold, so a rule with none matches. It raises exactly when some condition raises, including on a missing column. |
| DecisionTable.Hits | judge/rule_engine.py:1386-1393 | The hit count is at most the audit length, and is zero exactly when no audited rule matched. |
| DecisionTable.ApplyTable | judge/rule_engine.py:1386-1394 | The table raises exactly when its rule evaluation raises, and the audit is that evaluation's records. `hits` counts the matched audits and `score` sums only their scores; the result is `hits > 0`. |
| DecisionTable.RunAllAudit | judge/rule_engine.py:1371-1380 | With `run_all`: one audit entry per rule, in table order, with each rule's name, verdict and score (a missing score counts 0). The table aborts exactly when some rule raises. |
| DecisionTable.FirstMatchAborts | judge/rule_engine.py:1354-1385 | Without `run_all` the table aborts exactly when a rule raises before any rule has matched. |
| DecisionTable.FirstMatchAudit | judge/rule_engine.py:1381-1385 | Without `run_all` the audit is empty when every rule is false, and otherwise holds exactly the first matching rule. |
| DecisionTable.FirstMatchHitsAtMostOne | judge/rule_engine.py:1381-1393 | Stopping at the first match gives at most one hit. |
| DecisionTable.ModesAgree | judge/rule_engine.py:1371-1393 | Whenever exhaustive evaluation succeeds, first-match evaluation also succeeds, with the same verdict, no more hits, and the score of the first matching rule. |
| Collections.EntryOutcome | judge/rule_engine.py:725-740 | An inactive entry adds nothing. A missing registry or table raises, and so does an aborted table. A matched table yields its name, flag, override-or-table score and rule audit. That audit has one entry per rule with `run_all`, or exactly one without. |
| Collections.CollectAppend | judge/rule_engine.py:721-740 | The entry loop is an ordered fold: the hits of `xs + ys` are those of `xs` followed by those of `ys`, and either part raising raises. |
| Collections.RunEntriesSpec | judge/rule_engine.py:721-740 | The trail holds exactly the outcomes of the matched entries, at most one per entry. It aborts exactly when some entry raises. |
| Collections.RunEntriesAppend | judge/rule_engine.py:721-740 | Running two parts of a configuration one after the other gives the first part's hits, then the second's, in configuration order. |
| Collections.RunEntriesSingle | judge/rule_engine.py:725-738 | One entry adds nothing when inactive or unmatched, one hit when matched, and raises when its table raises. |
| Collections.RuleTrail | judge/rule_engine.py:736 | The concatenated rule audit has one record per rule audited by the hit tables, in order: the first table's records come first. It is at least as long as the number of hit tables when every hit audited a rule. |
| Collections.RuleCountIsSumOfAuditedRules | judge/rule_engine.py:725-747 | The rule count of the trail is the sum over matched active entries of the table's size when `Execute All Rules` is set, and 1 otherwise. |
| Collections.RuleHitsIsSumOfAuditedRules | judge/rule_engine.py:736-747 | `rule_hits` is that sum over the collection's configuration. |
| Collections.ApplyCollection | judge/rule_engine.py:718-748 | `collection_tables` counts every configured entry. The trail is exactly the entry run's hits, in configuration order. `hits` is its length and `result` is `hits > 0`. `rule_hits` is the number of rule records in the trail, at least `hits`. `collection_score` is the sum of the matched entries' effective scores. A missing configuration raises. |
| Collections.ActiveOnly | judge/rule_engine.py:725 | Keeps exactly the active entries. |
| Collections.InactiveEntriesIgnored | judge/rule_engine.py:725-740 | Inactive entries never change the hits and never make the loop raise. |
| Collections.InactiveEntriesOnlyCounted | judge/rule_engine.py:718-748 | Deactivated entries change only `collection_tables`; the rest of the result is that of the active entries alone. |
| Collections.ScoreIsSumOfContributions | judge/rule_engine.py:739-744 | `collection_score` is the sum over the configured entries of the effective score (override, else table score) of each entry whose table matched, and 0 for every other entry. |
| Engine.SortedCollections | judge/rule_engine.py:1188 | The collections in ascending priority: a permutation of the engine's list, with definition order kept among equal priorities. |
| Engine.RunCollectionsAborts | judge/rule_engine.py:1206-1214 | The loop aborts exactly when an active collection raises. |
| Engine.RunCollectionsKeys | judge/rule_engine.py:1206-1214 | The output keys are exactly the names of the active collections, added to those already written. |
| Engine.RunCollectionsUnnamed | judge/rule_engine.py:1206-1214 | Names that no active collection carries keep what they had. |
| Engine.RunCollectionsValue | judge/rule_engine.py:1206-1214 | Over any list, each name holds the result of the last active collection of that name in the list. |
| Engine.RunCollectionsUnique | judge/rule_engine.py:1206-1214 | With one active collection of a name, the entry under that name is that collection's result. |
| Engine.NamedMembers | judge/rule_engine.py:1194-1214 | The active collections of a name are exactly those in the list. |
| Engine.RunOn | judge/rule_engine.py:1188-1214 | The output is keyed by exactly the active names. A run aborts exactly when an active collection raises. |
| Engine.RunOnValue | judge/rule_engine.py:1188-1214 | Each active name holds the result of the last collection of that name in priority order. That collection has the highest priority of the name, and among those of that priority it is the last one defined. |
| Engine.SortedWinner | judge/rule_engine.py:1188 | In the sorted list, the last active collection of a name has the highest priority of that name and is the last defined among its priority. |
| Engine.NamedLastHighest | judge/rule_engine.py:1188 | In a list sorted by priority, no active collection of a name has a higher priority than its last one. |
| Engine.NamedLastOfKey | judge/rule_engine.py:1206-1214 | The last active collection of a name is also the last of that name among the collections of its priority. |
| Engine.Run | judge/rule_engine.py:1186-1215 | In record mode, extraction's result, including `None`, is the data every active collection sees. The keys are the active names. |
| Engine.RunResult | judge/rule_engine.py:1206-1214 | With unique names, each active collection's entry is its own `apply_collection` result. |
| Engine.RunRows | judge/rule_engine.py:1192-1203 | Each row is written only when some collection is active, and holds that row's collection results. Any row that raises aborts. |
| Engine.RunFrame | judge/rule_engine.py:1186-1203 | Dataframe mode aborts when extraction does. The row keys are the frame's indices if any collection is active, and none otherwise. Each row holds the active names, from that row's own extraction. |
| Engine.AddCollection | judge/rule_engine.py:1038-1060 | When the directory work raises, the handler swallows it and the engine is unchanged. Otherwise the unconfigured collection is appended even when the name exists. The structure and tables never change. |
| Engine.UnconfiguredCollectionAbortsRun | judge/rule_engine.py:620-621 | An active collection added but not yet configured makes every run raise. |
| Engine.RemoveFrom | judge/rule_engine.py:1090-1092 | The walk over the list never lengthens it. |
| Engine.RemoveCollectionAsWritten | judge/rule_engine.py:1086-1105 | Removal as written never lengthens the list and leaves the rest of the engine unchanged. Every collection of another name stays, in its order. |
| Engine.RemoveFromKeepsOthers | judge/rule_engine.py:1090-1092 | The walk deletes only collections of the removed name: filtering that name out of its result gives the same list as filtering it out of its input. |
| Engine.RemoveCollectionSkipsNeighbour | judge/rule_engine.py:1090-1092 | Of two adjacent collections with one name, the second survives the removal. |
| Engine.RemoveCollection | judge/rule_engine.py:1090-1092 | Corrected removal: every collection of the name goes and nothing else, so the name is no longer active. |
| Engine.RemoveFromNoneLeft | judge/rule_engine.py:1090-1092 | The walk changes nothing when no collection of the name lies ahead of it. |
| Engine.RemoveFromSingle | judge/rule_engine.py:1090-1092 | With at most one collection of the name ahead of it, the walk removes exactly that one. |
| Engine.RemoveFromMiss | judge/rule_engine.py:1090-1092 | A collection of another name stays in place and the walk moves past it. |
| Engine.RemoveFromHit | judge/rule_engine.py:1090-1092 | Removing the only collection of the name ahead of the walk leaves the others in place. |
| Engine.RemoveAgreesOnSingle | judge/rule_engine.py:1086-1105 | With at most one collection of the name, the code as written agrees with the corrected removal. |
| Engine.RemovedCollectionNotRun | judge/rule_engine.py:1206-1214 | After the corrected removal, the name is absent from the run's output. |
| Functions.FirstFailure | functions.py:10-11 | Every item before the returned position succeeds, and the item at it, if any, fails. |
| Functions.EachSpec | functions.py:10-11 | The loop succeeds exactly when every item does, with one output per item in order. Otherwise it raises the first failing item's error. |
| Functions.EachAppend | functions.py:10-11 | When both halves succeed, the loop over `xs + ys` gives the outputs of `xs` followed by those of `ys`. |
| Functions.Concat | functions.py:8-12 | The output has the same length as the input, and element `i` is `item[i][key]`. It fails exactly when some subscript fails, with the first failure's error; the empty list gives the empty list. |
| Functions.ConcatMissingKey | functions.py:11 | A dictionary lacking the key makes `concat` raise `KeyError`. |
| Functions.ConcatAppend | functions.py:8-12 | `concat` distributes over list concatenation. |
| Functions.Add | functions.py:17-18 | The input is a prefix, the suffix follows it, and the length grows by exactly the suffix length. |
| Functions.Cabin | functions.py:23-24 | The one-character string `s[0]`, or `IndexError` exactly on the empty string. |
| Functions.CabinIsSubscript | functions.py:23-24 | `cabin` agrees with the general subscript `s[0]`, in its value and in its error. |
| Functions.CabinOfAdd | functions.py:17-24 | `cabin` never raises after `add`, and gives the original first character or the suffix's. |
| Scenarios.StopAtFirstMatch | judge/rule_engine.py:1381-1393 | Take rules R1 (no match), R2 (match, score 5) and R3 (match, score 10). Without `run_all` the result is `matched, 5, 1 hit`, and the audit holds R2 alone. |
| Scenarios.FirstMatchNeverReachesLaterRules | judge/rule_engine.py:1381-1385 | Replace R3 by a raising rule. Stop-at-first-match is unaffected, while `run_all` aborts, so R3 is never evaluated. |
| Scenarios.EvaluateAll | judge/rule_engine.py:1371-1393 | The same table with `run_all` gives `matched, 15, 2 hits` and audits all three rules. |
| Scenarios.OverrideAndInactive | judge/rule_engine.py:718-748 | An override of 100 replaces the table score of 15. An inactive entry is still counted in `collection_tables`. `rule_hits` is 3 although 2 rules matched. |

## Left out

- `print`, `print_verbose` and the `verbose` flags: console output only.
- `exec` of expression bodies: an uninterpreted function from the map to a new map, or to a raise. The partial writes an expression makes before it raises are not modelled; a raising expression leaves the map unchanged.
- `eval` of condition cells: an uninterpreted partial predicate of the cell, the value `X` and the data. Python `bool(...)` of its result is folded into it.
- Type coercion `dtype(v)` and transform calls are uninterpreted partial functions. `literal_eval(str(parameters))` is folded into the call with parameters.
- The record-mode handler's catch-all is modelled for lookup errors and failed conversions. Coercion is taken never to raise `KeyError` in dataframe mode, so there a failing coercion aborts.
- The pandas conversions (`where(...).transpose().to_dict()`) are out. Frames enter as a map from row index to row record, and tables as typed rules. The `Rule Name` and `Rule Score` columns are assumed present and the score numeric.
- `output_to_df`: the dataframe-mode result is modelled before it is flattened into a frame.
- `get_attributes`, `get_expressions`, `get_decision_tables`, `get_collections`, `create_decision_table_template`: reporting only.
- `create_config_table`, `import_config_table`, `import_decision_tables`, `import_configurations`, `create_rule_engine`, `save_object`, `import_object`: file and pickle I/O. The configuration is taken as already sorted by priority, as `import_config_table` leaves it, and entries run in sequence order.
- Directory creation and deletion in `add_collection` and `remove_collection`. Their only effect on the engine is modelled: in `add_collection` a raising directory step means nothing is appended (`Engine.AddCollection`'s `filesOk`). Which file-system states make it raise is not modelled.
- Dictionary key order: Python dictionaries keep insertion order, but the model uses maps. The key order of the record-mode `output_dict` (judge/rule_engine.py:545-575) and of a run's output (judge/rule_engine.py:1206-1214) is not modelled, only their contents.
- `add_expression` with test data: validating an expression needs `exec` on extracted sample data; only the path without test data is modelled.
- The `rule_engine` wrappers `add_attribute`, `remove_attribute`, `add_expression` and `remove_expression` (for example judge/rule_engine.py:832) call straight through to the `data_structure` methods, which do the error catching and are modelled.
- Priorities and scores are integers rather than Python floats.
- Collections with a `None` priority, which make Python's sort raise, are out: a collection priority is an integer.
- The six parallel audit lists of a collection are modelled as one list of per-table records.
- `functions.length` uses regular expressions and `functions.upper` uses Unicode case mapping; neither is modelled.
- `judge/functions.py` holds only a docstring.

## Findings

| source | as written | input that shows it | evidently intended | confidence | as-written member | corrected member |
|---|---|---|---|---|---|---|
| judge/rule_engine.py:1090-1092 | `remove_collection` removes from `self._collections` while iterating over it, so the collection after each removed one shifts into the removed slot and is never examined | two adjacent collections both named `n` (which `add_collection` allows); `remove_collection(n)` leaves the second | every collection named `n` is removed | high (not executed) | Engine.RemoveCollectionSkipsNeighbour | Engine.RemoveCollection |

=== FILE: base.dfy ===
/**
 * Shared vocabulary of the rule-engine model: the failure wrappers, the
 * dynamic values that flow through the engine, the Python exceptions whose
 * kind changes what the engine does, and the runtime hooks that the engine
 * reaches through `eval`, `exec`, type constructors and transform functions.
 */
module Base {

  /** `None` stands for "the Python code raised" wherever a hook returns one. */
  datatype Option<T> = None | Some(value: T) {

    /** The wrapped value, or `default` when there is none. */
    function GetOr(default: T): T {
      match this
      case Some(v) => v
      case None => default
    }
  }

  /** The exceptions a subscript can raise. */
  datatype PyError = KeyError | IndexError | TypeError

  datatype Result<T> = Ok(value: T) | Err(error: PyError)

  /** A Python value of the kinds an input record is built from; `VNull` is `None`. */
  datatype Value =
    | VNull
    | VBool(b: bool)
    | VInt(i: int)
    | VStr(s: string)
    | VList(items: seq<Value>)
    | VDict(entries: map<string, Value>)

  /** One subscript of an attribute path: a dictionary key or a list/string index. */
  datatype Key = KStr(s: string) | KInt(i: int)

  /**
   * The dynamic parts of the Python runtime, each returning `None` when the
   * call raises:
   *  - `coerce(dtype, v)` is the type constructor call `dtype(v)`;
   *  - `call(f, v)` is a transform called without parameters, `f(v)`;
   *  - `callWith(f, v, ps)` is a transform called as `f(v, **ps)`;
   *  - `exec(body, data)` runs an expression body with `data` bound to the
   *    attribute map and yields the map as it stands afterwards;
   *  - `eval(cell, x, data)` is `bool(eval(cell))` with `X` bound to `x` and
   *    `data` bound to the attribute map.
   */
  datatype Host = Host(
    coerce: (string, Value) -> Option<Value>,
    call: (string, Value) -> Option<Value>,
    callWith: (string, Value, map<string, Value>) -> Option<Value>,
    exec: (string, map<string, Value>) -> Option<map<string, Value>>,
    eval: (Value, Value, map<string, Value>) -> Option<bool>)

  /** Python's `sum` over a list of integers. */
  function Sum(xs: seq<int>): int {
    if |xs| == 0 then 0 else xs[0] + Sum(xs[1..])
  }
}

=== FILE: collection.dfy ===
/**
 * `collection.apply_collection`: the configured decision tables of one
 * collection run in configuration order. Inactive entries are counted but
 * skipped; an active entry whose table matches adds its name, its manual
 * flag, its effective score (the override when set, else the table score)
 * and its rule audit to the collection's audit trail.
 */
module Collections {
  import opened Base
  import opened DecisionTable

  /** One row of a configuration table. */
  datatype Entry = Entry(
    table: string,
    priority: int,
    active: bool,
    runAll: bool,
    scoreOverride: Option<int>,
    flag: Value)

  /** A collection; `configuration == None` until its configuration table has been imported. */
  datatype Collection = Collection(name: string, priority: int, active: bool, configuration: Option<seq<Entry>>)

  /** What one hit table adds to the audit trail. */
  datatype Hit = Hit(table: string, flag: Value, score: int, rules: seq<RuleAudit>)

  /**
   * `collection_result`, `collection_score`, `collection_tables`,
   * `collection_hits`, `rule_hits` and the audit trail, one `Hit` per table.
   */
  datatype CollectionResult = CollectionResult(
    matched: bool,
    score: int,
    tables: nat,
    hits: nat,
    ruleHits: nat,
    audit: seq<Hit>)

  /** `score_override if score_override != None else decision_table_score`. */
  function EffectiveScore(e: Entry, t: TableResult): int {
    match e.scoreOverride
    case Some(s) => s
    case None => t.score
  }

  /**
   * One pass of the entry loop: `None` when it raises (a missing table or an
   * aborted table, whose `None` result is then subscripted), `Some(None)` when
   * it adds nothing, `Some(Some(hit))` when the table matched.
   */
  function EntryOutcome(h: Host, e: Entry, data: Option<map<string, Value>>,
                        tables: Option<map<string, Table>>): (r: Option<Option<Hit>>)
    ensures !e.active ==> r == Some(None)
    ensures e.active && (tables.None? || e.table !in tables.value) ==> r.None?
    ensures e.active && tables.Some? && e.table in tables.value ==>
              (r.None? <==> ApplyTable(h, tables.value[e.table], data, e.runAll).None?)
    ensures r.Some? && r.value.Some? ==>
              && e.active && tables.Some? && e.table in tables.value
              && var t := ApplyTable(h, tables.value[e.table], data, e.runAll);
              && t.Some? && t.value.matched
              && r.value.value.table == e.table && r.value.value.flag == e.flag
              && r.value.value.score == (if e.scoreOverride.Some? then e.scoreOverride.value else t.value.score)
              && r.value.value.rules == t.value.audit
              && |r.value.value.rules| == (if e.runAll then |tables.value[e.table]| else 1)
    ensures r == Some(None) ==>
              !e.active || !ApplyTable(h, tables.value[e.table], data, e.runAll).value.matched
  {
    if !e.active then Some(None)
    else if tables.None? || e.table !in tables.value then None
    else
      var rules := tables.value[e.table];
      match ApplyTable(h, rules, data, e.runAll)
      case None => None
      case Some(t) =>
        if t.matched then
          if e.runAll then
            RunAllAudit(h, rules, data);
            Some(Some(Hit(e.table, e.flag, EffectiveScore(e, t), t.audit)))
          else
            FirstMatchAudit(h, rules, data);
            Some(Some(Hit(e.table, e.flag, EffectiveScore(e, t), t.audit)))
        else Some(None)
  }

  /** The entry loop for any per-entry outcome: the hits in order, or `None` at the first raise. */
  function Collect(entries: seq<Entry>, outcome: Entry -> Option<Option<Hit>>): Option<seq<Hit>>
    decreases |entries|
  {
    if |entries| == 0 then Some([])
    else
      match outcome(entries[0])
      case None => None
      case Some(o) =>
        (match Collect(entries[1..], outcome)
         case None => None
         case Some(rest) => Some((if o.Some? then [o.value] else []) + rest))
  }

  /** The loop is an ordered fold: the hits of `xs` come first, and either part raising raises. */
  lemma {:induction false} CollectAppend(xs: seq<Entry>, ys: seq<Entry>, outcome: Entry -> Option<Option<Hit>>)
    ensures Collect(xs + ys, outcome) ==
              match Collect(xs, outcome)
              case None => None
              case Some(a) =>
                (match Collect(ys, outcome)
                 case None => None
                 case Some(b) => Some(a + b))
    decreases |xs|
  {
    if |xs| == 0 {
      assert xs + ys == ys;
      if Collect(ys, outcome).Some? {
        assert [] + Collect(ys, outcome).value == Collect(ys, outcome).value;
      }
    } else {
      var zs := xs + ys;
      assert zs[0] == xs[0] && zs[1..] == xs[1..] + ys;
      CollectAppend(xs[1..], ys, outcome);
      match outcome(xs[0])
      case None =>
      case Some(o) =>
        var head := if o.Some? then [o.value] else [];
        var ra, rb := Collect(xs[1..], outcome), Collect(ys, outcome);
        if ra.Some? && rb.Some? {
          assert head + (ra.value + rb.value) == (head + ra.value) + rb.value;
        }
    }
  }

  /** What one entry does to the trail, for fixed data and tables. */
  function Outcomes(h: Host, data: Option<map<string, Value>>, tables: Option<map<string, Table>>):
    Entry -> Option<Option<Hit>>
  {
    e => EntryOutcome(h, e, data, tables)
  }

  /** The entry loop: the hits of the configured tables, in configuration order. */
  function RunEntries(h: Host, entries: seq<Entry>, data: Option<map<string, Value>>,
                      tables: Option<map<string, Table>>): Option<seq<Hit>>
  {
    Collect(entries, Outcomes(h, data, tables))
  }

  /**
   * The loop raises exactly when some entry raises; otherwise its trail holds
   * exactly the hits of the matched entries, at most one per entry.
   */
  lemma {:induction false} RunEntriesSpec(h: Host, entries: seq<Entry>, data: Option<map<string, Value>>,
                                          tables: Option<map<string, Table>>)
    ensures var r := RunEntries(h, entries, data, tables);
      && (r.Some? ==> |r.value| <= |entries|)
      && (r.None? <==> exists e :: e in entries && EntryOutcome(h, e, data, tables).None?)
      && (r.Some? ==> forall x :: x in r.value <==>
            exists e :: e in entries && EntryOutcome(h, e, data, tables) == Some(Some(x)))
    decreases |entries|
  {
    if |entries| > 0 {
      RunEntriesSpec(h, entries[1..], data, tables);
      assert forall e :: e in entries <==> e == entries[0] || e in entries[1..];
    }
  }

  function Scores(hits: seq<Hit>): (s: seq<int>)
    ensures |s| == |hits| && forall i :: 0 <= i < |hits| ==> s[i] == hits[i].score
  {
    if |hits| == 0 then [] else [hits[0].score] + Scores(hits[1..])
  }

  /** The number of rule audits the hit tables carry, table by table. */
  function RuleCount(hits: seq<Hit>): nat
  {
    if |hits| == 0 then 0 else |hits[0].rules| + RuleCount(hits[1..])
  }

  /** The `rules` list of the collection audit: the rule audits of the hit tables, concatenated. */
  function RuleTrail(hits: seq<Hit>): (t: seq<RuleAudit>)
    ensures |t| == RuleCount(hits)
    ensures (forall i :: 0 <= i < |hits| ==> |hits[i].rules| > 0) ==> |t| >= |hits|
    ensures |hits| > 0 ==> t[..|hits[0].rules|] == hits[0].rules
  {
    if |hits| == 0 then [] else hits[0].rules + RuleTrail(hits[1..])
  }

  /** `apply_collection(data, decision_table_dictionary)`. */
  function ApplyCollection(h: Host, c: Collection, data: Option<map<string, Value>>,
                           tables: Option<map<string, Table>>): (r: Option<CollectionResult>)
    ensures r.None? <==>
              c.configuration.None? ||
              exists e :: e in c.configuration.value && EntryOutcome(h, e, data, tables).None?
    ensures r.Some? ==> r.value.tables == |c.configuration.value|
    ensures r.Some? ==> r.value.hits == |r.value.audit| <= r.value.tables
    ensures r.Some? ==> r.value.matched == (r.value.hits > 0)
    ensures r.Some? ==> r.value.ruleHits >= r.value.hits && r.value.ruleHits == RuleCount(r.value.audit)
    ensures r.Some? ==> r.value.score == Contribution(h, c.configuration.value, data, tables)
    ensures r.Some? ==> RunEntries(h, c.configuration.value, data, tables) == Some(r.value.audit)
    ensures r.Some? ==> forall x :: x in r.value.audit <==>
              exists e :: e in c.configuration.value && EntryOutcome(h, e, data, tables) == Some(Some(x))
  {
    match c.configuration
    case None => None
    case Some(entries) =>
      RunEntriesSpec(h, entries, data, tables);
      match RunEntries(h, entries, data, tables)
      case None => None
      case Some(hits) =>
        ScoreIsSumOfContributions(h, entries, data, tables);
        assert forall i :: 0 <= i < |hits| ==> |hits[i].rules| > 0 by {
          forall i | 0 <= i < |hits|
            ensures |hits[i].rules| > 0
          {
            assert hits[i] in hits;
          }
        }
        Some(CollectionResult(|hits| > 0, Sum(Scores(hits)), |entries|, |hits|, |RuleTrail(hits)|, hits))
  }

  /** The active entries of a configuration, in order. */
  function ActiveOnly(entries: seq<Entry>): (r: seq<Entry>)
    ensures forall e :: e in r <==> e in entries && e.active
  {
    if |entries| == 0 then []
    else (if entries[0].active then [entries[0]] else []) + ActiveOnly(entries[1..])
  }

  /** Inactive entries add nothing to the audit trail and never make the collection raise. */
  lemma {:induction false} InactiveEntriesIgnored(h: Host, entries: seq<Entry>, data: Option<map<string, Value>>,
                                                  tables: Option<map<string, Table>>)
    ensures RunEntries(h, entries, data, tables) == RunEntries(h, ActiveOnly(entries), data, tables)
    decreases |entries|
  {
    if |entries| > 0 {
      InactiveEntriesIgnored(h, entries[1..], data, tables);
      var a := ActiveOnly(entries);
      if entries[0].active {
        assert a[0] == entries[0] && a[1..] == ActiveOnly(entries[1..]);
      } else {
        assert a == ActiveOnly(entries[1..]);
        assert EntryOutcome(h, entries[0], data, tables) == Some(None);
        assert RunEntries(h, entries, data, tables) == RunEntries(h, entries[1..], data, tables) by {
          if RunEntries(h, entries[1..], data, tables).Some? {
            assert [] + RunEntries(h, entries[1..], data, tables).value
                == RunEntries(h, entries[1..], data, tables).value;
          }
        }
      }
    }
  }

  /**
   * The collection counts every configured entry, but deactivating entries
   * changes nothing else: the result equals that of the active entries alone.
   */
  lemma InactiveEntriesOnlyCounted(h: Host, c: Collection, data: Option<map<string, Value>>,
                                   tables: Option<map<string, Table>>)
    requires c.configuration.Some?
    ensures var c' := c.(configuration := Some(ActiveOnly(c.configuration.value)));
      && ApplyCollection(h, c, data, tables).Some? == ApplyCollection(h, c', data, tables).Some?
      && (ApplyCollection(h, c, data, tables).Some? ==>
            ApplyCollection(h, c, data, tables).value ==
            ApplyCollection(h, c', data, tables).value.(tables := |c.configuration.value|))
  {
    InactiveEntriesIgnored(h, c.configuration.value, data, tables);
  }

  /** What an entry adds to `collection_score`: its effective score when its table matched, otherwise nothing. */
  function Contribution(h: Host, entries: seq<Entry>, data: Option<map<string, Value>>,
                        tables: Option<map<string, Table>>): int
    decreases |entries|
  {
    if |entries| == 0 then 0
    else
      (match EntryOutcome(h, entries[0], data, tables)
       case Some(Some(x)) => x.score
       case _ => 0) + Contribution(h, entries[1..], data, tables)
  }

  /** `collection_score` is the sum over the configured entries of what each contributes. */
  lemma {:induction false} ScoreIsSumOfContributions(h: Host, entries: seq<Entry>, data: Option<map<string, Value>>,
                                                     tables: Option<map<string, Table>>)
    requires RunEntries(h, entries, data, tables).Some?
    ensures Sum(Scores(RunEntries(h, entries, data, tables).value)) == Contribution(h, entries, data, tables)
    decreases |entries|
  {
    if |entries| > 0 {
      var o := EntryOutcome(h, entries[0], data, tables).value;
      var rest := RunEntries(h, entries[1..], data, tables).value;
      ScoreIsSumOfContributions(h, entries[1..], data, tables);
      if o.Some? {
        var hits := [o.value] + rest;
        assert hits[1..] == rest;
        assert Scores(hits)[1..] == Scores(rest);
      } else {
        assert RunEntries(h, entries, data, tables).value == [] + rest;
        assert [] + rest == rest;
      }
    }
  }

  /**
   * What an entry adds to `rule_hits`: the whole table when it matched with
   * `run_all`, one rule when it matched without, otherwise nothing.
   */
  function AuditedRules(h: Host, entries: seq<Entry>, data: Option<map<string, Value>>,
                        tables: Option<map<string, Table>>): int
    decreases |entries|
  {
    if |entries| == 0 then 0
    else
      var e := entries[0];
      (match EntryOutcome(h, e, data, tables)
       case Some(Some(_)) => if e.runAll then |tables.value[e.table]| else 1
       case _ => 0) + AuditedRules(h, entries[1..], data, tables)
  }

  lemma {:induction false} RuleCountIsSumOfAuditedRules(h: Host, entries: seq<Entry>, data: Option<map<string, Value>>,
                                                        tables: Option<map<string, Table>>)
    requires RunEntries(h, entries, data, tables).Some?
    ensures RuleCount(RunEntries(h, entries, data, tables).value) == AuditedRules(h, entries, data, tables)
    decreases |entries|
  {
    if |entries| > 0 {
      var o := EntryOutcome(h, entries[0], data, tables).value;
      var rest := RunEntries(h, entries[1..], data, tables).value;
      RuleCountIsSumOfAuditedRules(h, entries[1..], data, tables);
      if o.Some? {
        var hits := [o.value] + rest;
        assert hits[0] == o.value && hits[1..] == rest;
        assert RuleCount(hits) == |o.value.rules| + RuleCount(rest);
      } else {
        assert RunEntries(h, entries, data, tables).value == [] + rest;
        assert [] + rest == rest;
      }
    }
  }

  /**
   * `rule_hits` is the number of rules audited by the matched active entries:
   * every rule of a `run_all` table, matched or not, and one rule otherwise.
   */
  lemma RuleHitsIsSumOfAuditedRules(h: Host, c: Collection, data: Option<map<string, Value>>,
                                    tables: Option<map<string, Table>>)
    requires ApplyCollection(h, c, data, tables).Some?
    ensures ApplyCollection(h, c, data, tables).value.ruleHits == AuditedRules(h, c.configuration.value, data, tables)
  {
    RuleCountIsSumOfAuditedRules(h, c.configuration.value, data, tables);
  }

  /**
   * The entry loop is an ordered fold: running `xs + ys` is running `xs`, then
   * `ys`, with the hits of `xs` first; it raises when either part raises.
   */
  lemma RunEntriesAppend(h: Host, xs: seq<Entry>, ys: seq<Entry>, data: Option<map<string, Value>>,
                                            tables: Option<map<string, Table>>)
    ensures RunEntries(h, xs + ys, data, tables) ==
              match RunEntries(h, xs, data, tables)
              case None => None
              case Some(a) =>
                (match RunEntries(h, ys, data, tables)
                 case None => None
                 case Some(b) => Some(a + b))
  {
    CollectAppend(xs, ys, Outcomes(h, data, tables));
  }

  /** A single entry contributes exactly its own outcome to the trail. */
  lemma RunEntriesSingle(h: Host, e: Entry, data: Option<map<string, Value>>, tables: Option<map<string, Table>>)
    ensures RunEntries(h, [e], data, tables) ==
              match EntryOutcome(h, e, data, tables)
              case None => None
              case Some(None) => Some([])
              case Some(Some(x)) => Some([x])
  {
    var nil: seq<Hit> := [];
    assert [e][1..] == [] && [e][0] == e;
    assert RunEntries(h, [e][1..], data, tables) == Some(nil);
    match EntryOutcome(h, e, data, tables)
    case None =>
    case Some(None) =>
      assert RunEntries(h, [e], data, tables) == Some(nil + nil);
      assert nil + nil == nil;
    case Some(Some(x)) =>
      assert RunEntries(h, [e], data, tables) == Some([x] + nil);
      assert [x] + nil == [x];
  }
}

=== FILE: data_structure.dfy ===
/**
 * The definitions the `data_structure` class holds: attributes (a path into
 * the input, a target type, a default, a priority and an optional chain of
 * transforms) and expressions (a named body run after extraction), with the
 * add and remove operations that keep one definition per name.
 */
module DataStructure {
  import opened Base
  import Registry

  /** One entry of a function dictionary: the transform and its keyword parameters, if any. */
  datatype Step = Step(fn: string, params: Option<map<string, Value>>)

  /**
   * An attribute; `default == VNull` is a missing default and `functions ==
   * None` is a missing function dictionary (not the same as an empty one).
   */
  datatype Attribute = Attribute(
    name: string,
    path: seq<Key>,
    dtype: string,
    default: Value,
    priority: Option<int>,
    functions: Option<seq<Step>>)

  datatype Expression = Expression(name: string, body: string, priority: Option<int>)

  datatype Structure = Structure(attributes: seq<Attribute>, expressions: seq<Expression>)

  function AttrName(a: Attribute): string { a.name }
  function ExprName(e: Expression): string { e.name }
  function AttrPriority(a: Attribute): Option<int> { a.priority }
  function ExprPriority(e: Expression): Option<int> { e.priority }

  /** The invariant the add operations maintain: one definition per name. */
  ghost predicate Valid(ds: Structure) {
    Registry.UniqueNames(ds.attributes, AttrName) && Registry.UniqueNames(ds.expressions, ExprName)
  }

  /** `add_attribute`: replaces any attribute of the same name and appends the new one. */
  function AddAttribute(ds: Structure, a: Attribute): (r: Structure)
    ensures r.expressions == ds.expressions
    ensures |r.attributes| > 0 && r.attributes[|r.attributes| - 1] == a
    ensures Registry.CountNamed(r.attributes, AttrName, a.name) == 1
    ensures r.attributes[..|r.attributes| - 1] == Registry.Without(ds.attributes, AttrName, a.name)
  {
    Registry.UpsertSpec(ds.attributes, a, AttrName);
    ds.(attributes := Registry.Upsert(ds.attributes, a, AttrName))
  }

  /** `remove_attribute`: drops every attribute of that name and nothing else. */
  function RemoveAttribute(ds: Structure, n: string): (r: Structure)
    ensures r.expressions == ds.expressions
    ensures forall b :: b in r.attributes <==> b in ds.attributes && b.name != n
  {
    ds.(attributes := Registry.Without(ds.attributes, AttrName, n))
  }

  /** `add_expression` without test data: replaces any expression of the same name and appends. */
  function AddExpression(ds: Structure, e: Expression): (r: Structure)
    ensures r.attributes == ds.attributes
    ensures |r.expressions| > 0 && r.expressions[|r.expressions| - 1] == e
    ensures Registry.CountNamed(r.expressions, ExprName, e.name) == 1
    ensures r.expressions[..|r.expressions| - 1] == Registry.Without(ds.expressions, ExprName, e.name)
  {
    Registry.UpsertSpec(ds.expressions, e, ExprName);
    ds.(expressions := Registry.Upsert(ds.expressions, e, ExprName))
  }

  /** `remove_expression`: drops every expression of that name and nothing else. */
  function RemoveExpression(ds: Structure, n: string): (r: Structure)
    ensures r.attributes == ds.attributes
    ensures forall e :: e in r.expressions <==> e in ds.expressions && e.name != n
  {
    ds.(expressions := Registry.Without(ds.expressions, ExprName, n))
  }

  /** Removing a name no definition carries changes nothing. */
  lemma RemoveAbsentIsNoop(ds: Structure, n: string)
    requires forall b :: b in ds.attributes ==> b.name != n
    requires forall e :: e in ds.expressions ==> e.name != n
    ensures RemoveAttribute(ds, n) == ds
    ensures RemoveExpression(ds, n) == ds
  {
    Registry.WithoutAbsent(ds.attributes, AttrName, n);
    Registry.WithoutAbsent(ds.expressions, ExprName, n);
  }

  /** Every add and remove keeps one definition per name. */
  lemma EditsKeepValid(ds: Structure, a: Attribute, e: Expression, n: string)
    requires Valid(ds)
    ensures Valid(AddAttribute(ds, a))
    ensures Valid(RemoveAttribute(ds, n))
    ensures Valid(AddExpression(ds, e))
    ensures Valid(RemoveExpression(ds, n))
  {
    Registry.UpsertUnique(ds.attributes, a, AttrName);
    Registry.WithoutUnique(ds.attributes, AttrName, n);
    Registry.UpsertUnique(ds.expressions, e, ExprName);
    Registry.WithoutUnique(ds.expressions, ExprName, n);
  }

  /** Removing an attribute right after adding it leaves what removing it alone would. */
  lemma RemoveUndoesAdd(ds: Structure, a: Attribute)
    ensures RemoveAttribute(AddAttribute(ds, a), a.name) == RemoveAttribute(ds, a.name)
  {
    Registry.RemoveAfterUpsert(ds.attributes, a, AttrName);
  }

  /** Re-adding an attribute under the same name keeps only the later definition. */
  lemma LastAddWins(ds: Structure, a: Attribute, b: Attribute)
    requires a.name == b.name
    ensures AddAttribute(AddAttribute(ds, a), b) == AddAttribute(ds, b)
  {
    Registry.UpsertTwice(ds.attributes, a, b, AttrName);
  }
}

=== FILE: decision_table.dfy ===
/**
 * `apply_decision_table`: the rules of one table are evaluated in row order
 * against the attribute map. A rule matches when every non-empty condition
 * cell holds; in stop-at-first-match mode the table stops at (and audits only)
 * the first matching rule, with `run_all` every rule is audited. Any raise
 * while evaluating a condition makes the whole table return `None`.
 */
module DecisionTable {
  import opened Base

  /** A non-reserved cell of a rule: its column and its condition, `VNull` when empty. */
  datatype Condition = Condition(column: string, cell: Value)

  /** One row: the `Rule Name` and `Rule Score` cells and the condition cells in column order. */
  datatype Rule = Rule(name: Value, score: Option<int>, conditions: seq<Condition>)

  type Table = seq<Rule>

  /** One entry of the table's audit trail (the `rules`, `match` and `score` lists). */
  datatype RuleAudit = RuleAudit(name: Value, matched: bool, score: int)

  /** `decision_table_result`, `decision_table_score`, `decision_table_hits` and the audit trail. */
  datatype TableResult = TableResult(matched: bool, score: int, hits: nat, audit: seq<RuleAudit>)

  /** A missing `Rule Score` counts as 0. */
  function ScoreOf(rule: Rule): int {
    rule.score.GetOr(0)
  }

  /**
   * `X = data[column]` followed by `bool(eval(condition))`. Subscripting fails
   * when the column is missing or when extraction itself returned `None`.
   */
  function Check(h: Host, c: Condition, data: Option<map<string, Value>>): Option<bool>
  {
    match data
    case None => None
    case Some(d) => if c.column in d then h.eval(c.cell, d[c.column], d) else None
  }

  /** The cell loop of one rule: the number of conditions counted and the number that held. */
  function Tally(h: Host, conds: seq<Condition>, data: Option<map<string, Value>>): Option<(nat, nat)>
    decreases |conds|
  {
    if |conds| == 0 then Some((0, 0))
    else if conds[0].cell == VNull then Tally(h, conds[1..], data)
    else
      match Check(h, conds[0], data)
      case None => None
      case Some(b) =>
        (match Tally(h, conds[1..], data)
         case None => None
         case Some(t) => Some((t.0 + 1, t.1 + if b then 1 else 0)))
  }

  /**
   * Only non-empty cells are counted; the held count reaches the counted one
   * exactly when every such cell checks true; any raising cell aborts the loop.
   */
  lemma {:induction false} TallySpec(h: Host, conds: seq<Condition>, data: Option<map<string, Value>>)
    ensures var r := Tally(h, conds, data);
      && (r.Some? ==> r.value.1 <= r.value.0)
      && (r.Some? ==>
            (r.value.0 == r.value.1 <==>
               forall c :: c in conds && c.cell != VNull ==> Check(h, c, data) == Some(true)))
      && (r.None? <==> exists c :: c in conds && c.cell != VNull && Check(h, c, data).None?)
    decreases |conds|
  {
    if |conds| > 0 {
      TallySpec(h, conds[1..], data);
      assert forall c :: c in conds <==> c == conds[0] || c in conds[1..];
    }
  }

  /**
   * `conditions == sum(hit_list)`: the rule is the conjunction of its non-empty
   * cells; `None` when a cell raises.
   */
  function RuleMatches(h: Host, rule: Rule, data: Option<map<string, Value>>): Option<bool>
  {
    match Tally(h, rule.conditions, data)
    case None => None
    case Some(t) => Some(t.0 == t.1)
  }

  /**
   * A rule matches exactly when all its non-empty conditions hold (so a rule
   * without conditions matches), and raises exactly when one of them raises,
   * in particular on a column missing from the data.
   */
  lemma RuleMatchesSpec(h: Host, rule: Rule, data: Option<map<string, Value>>)
    ensures var r := RuleMatches(h, rule, data);
      && (r == Some(true) <==>
            forall c :: c in rule.conditions && c.cell != VNull ==> Check(h, c, data) == Some(true))
      && (r.None? <==> exists c :: c in rule.conditions && c.cell != VNull && Check(h, c, data).None?)
      && (data.Some? && (exists c :: c in rule.conditions && c.cell != VNull && c.column !in data.value) ==>
            r.None?)
  {
    TallySpec(h, rule.conditions, data);
  }

  function Audit(rule: Rule, matched: bool): RuleAudit {
    RuleAudit(rule.name, matched, ScoreOf(rule))
  }

  /** The rule loop: every rule is audited with `run_all`; otherwise only the first match, which ends the loop. */
  function EvalRules(h: Host, rules: Table, data: Option<map<string, Value>>, runAll: bool): Option<seq<RuleAudit>>
    decreases |rules|
  {
    if |rules| == 0 then Some([])
    else
      match RuleMatches(h, rules[0], data)
      case None => None
      case Some(m) =>
        if runAll then
          (match EvalRules(h, rules[1..], data, runAll)
           case None => None
           case Some(rest) => Some([Audit(rules[0], m)] + rest))
        else if m then Some([Audit(rules[0], true)])
        else EvalRules(h, rules[1..], data, runAll)
  }

  /** `sum(match)`. */
  function Hits(audit: seq<RuleAudit>): (n: nat)
    ensures n <= |audit|
    ensures n == 0 <==> forall i :: 0 <= i < |audit| ==> !audit[i].matched
  {
    if |audit| == 0 then 0 else (if audit[0].matched then 1 else 0) + Hits(audit[1..])
  }

  /** `sum(match * score)`: the scores of the matched entries only. */
  function MatchedScore(audit: seq<RuleAudit>): int
  {
    if |audit| == 0 then 0 else (if audit[0].matched then audit[0].score else 0) + MatchedScore(audit[1..])
  }

  /** `apply_decision_table(decision_table, data, run_all)`. */
  function ApplyTable(h: Host, rules: Table, data: Option<map<string, Value>>, runAll: bool): (r: Option<TableResult>)
    ensures r.Some? ==> r.value.hits == Hits(r.value.audit) && r.value.score == MatchedScore(r.value.audit)
    ensures r.None? <==> EvalRules(h, rules, data, runAll).None?
    ensures r.Some? ==> r.value.audit == EvalRules(h, rules, data, runAll).value
    ensures r.Some? ==> r.value.matched == (r.value.hits > 0)
  {
    match EvalRules(h, rules, data, runAll)
    case None => None
    case Some(audit) => Some(TableResult(Hits(audit) > 0, MatchedScore(audit), Hits(audit), audit))
  }

  /** Rule `k` is the first one that matches, and every rule before it evaluated to false. */
  ghost predicate FirstMatch(h: Host, rules: Table, data: Option<map<string, Value>>, k: int) {
    && 0 <= k < |rules|
    && RuleMatches(h, rules[k], data) == Some(true)
    && forall i :: 0 <= i < k ==> RuleMatches(h, rules[i], data) == Some(false)
  }

  /**
   * With `run_all` the audit has one entry per rule, in table order, and the
   * table aborts exactly when some rule raises.
   */
  lemma {:induction false} RunAllAudit(h: Host, rules: Table, data: Option<map<string, Value>>)
    ensures EvalRules(h, rules, data, true).None? <==>
              exists i :: 0 <= i < |rules| && RuleMatches(h, rules[i], data).None?
    ensures EvalRules(h, rules, data, true).Some? ==>
              var audit := EvalRules(h, rules, data, true).value;
              && |audit| == |rules|
              && forall i :: 0 <= i < |rules| ==>
                   (RuleMatches(h, rules[i], data) == Some(audit[i].matched)
                    && audit[i] == Audit(rules[i], audit[i].matched))
    decreases |rules|
  {
    if |rules| > 0 {
      RunAllAudit(h, rules[1..], data);
      assert forall i :: 1 <= i < |rules| ==> rules[i] == rules[1..][i - 1];
      if RuleMatches(h, rules[0], data).Some? && EvalRules(h, rules[1..], data, true).None? {
        var j :| 0 <= j < |rules[1..]| && RuleMatches(h, rules[1..][j], data).None?;
        assert RuleMatches(h, rules[j + 1], data).None?;
      }
    }
  }

  /** Rule `k` raises, and every rule before it evaluated to false. */
  ghost predicate AbortsAt(h: Host, rules: Table, data: Option<map<string, Value>>, k: int) {
    && 0 <= k < |rules|
    && RuleMatches(h, rules[k], data).None?
    && forall i :: 0 <= i < k ==> RuleMatches(h, rules[i], data) == Some(false)
  }

  /** Without `run_all` the table aborts exactly when a rule raises before any rule has matched. */
  lemma {:induction false} FirstMatchAborts(h: Host, rules: Table, data: Option<map<string, Value>>)
    ensures EvalRules(h, rules, data, false).None? <==> exists k :: AbortsAt(h, rules, data, k)
    decreases |rules|
  {
    if |rules| > 0 {
      FirstMatchAborts(h, rules[1..], data);
      var r0 := RuleMatches(h, rules[0], data);
      if r0.None? {
        assert AbortsAt(h, rules, data, 0);
      } else if r0 == Some(true) {
        forall k | 0 <= k < |rules|
          ensures !AbortsAt(h, rules, data, k)
        {
          if k > 0 {
            assert RuleMatches(h, rules[0], data) != Some(false);
          }
        }
      } else {
        forall k | 0 <= k < |rules|
          ensures AbortsAt(h, rules, data, k) <==> k > 0 && AbortsAt(h, rules[1..], data, k - 1)
        {
          if k > 0 {
            assert rules[1..][k - 1] == rules[k];
            assert forall i :: 0 <= i < k - 1 ==> rules[1..][i] == rules[i + 1];
          }
        }
        if EvalRules(h, rules[1..], data, false).None? {
          var k :| AbortsAt(h, rules[1..], data, k);
          assert AbortsAt(h, rules, data, k + 1);
        }
      }
    }
  }

  /**
   * Without `run_all` the audit is empty when no rule matches, and otherwise
   * holds exactly the first matching rule.
   */
  lemma {:induction false} FirstMatchAudit(h: Host, rules: Table, data: Option<map<string, Value>>)
    requires EvalRules(h, rules, data, false).Some?
    ensures |EvalRules(h, rules, data, false).value| <= 1
    ensures |EvalRules(h, rules, data, false).value| == 0 ==>
              forall i :: 0 <= i < |rules| ==> RuleMatches(h, rules[i], data) == Some(false)
    ensures |EvalRules(h, rules, data, false).value| == 1 ==>
              exists k :: FirstMatch(h, rules, data, k) &&
                          EvalRules(h, rules, data, false).value[0] == Audit(rules[k], true)
    decreases |rules|
  {
    if |rules| > 0 {
      var m := RuleMatches(h, rules[0], data).value;
      if m {
        assert FirstMatch(h, rules, data, 0);
      } else {
        FirstMatchAudit(h, rules[1..], data);
        var audit := EvalRules(h, rules[1..], data, false).value;
        if |audit| == 1 {
          var k :| FirstMatch(h, rules[1..], data, k) && audit[0] == Audit(rules[1..][k], true);
          assert forall i :: 1 <= i < k + 1 ==> rules[i] == rules[1..][i - 1];
          assert FirstMatch(h, rules, data, k + 1);
        } else {
          assert forall i :: 1 <= i < |rules| ==> rules[i] == rules[1..][i - 1];
        }
      }
    }
  }

  /** Stop-at-first-match mode records at most one hit. */
  lemma FirstMatchHitsAtMostOne(h: Host, rules: Table, data: Option<map<string, Value>>)
    requires ApplyTable(h, rules, data, false).Some?
    ensures ApplyTable(h, rules, data, false).value.hits <= 1
  {
    FirstMatchAudit(h, rules, data);
  }

  /**
   * When the exhaustive evaluation succeeds, stopping at the first match
   * succeeds too, reaches the same verdict, and scores the first matching rule.
   */
  lemma {:induction false} ModesAgree(h: Host, rules: Table, data: Option<map<string, Value>>)
    requires ApplyTable(h, rules, data, true).Some?
    ensures ApplyTable(h, rules, data, false).Some?
    ensures ApplyTable(h, rules, data, false).value.matched == ApplyTable(h, rules, data, true).value.matched
    ensures ApplyTable(h, rules, data, false).value.hits <= ApplyTable(h, rules, data, true).value.hits
    ensures ApplyTable(h, rules, data, false).value.matched ==>
              exists k :: FirstMatch(h, rules, data, k) &&
                          ApplyTable(h, rules, data, false).value.score == ScoreOf(rules[k])
    decreases |rules|
  {
    if |rules| > 0 {
      var m := RuleMatches(h, rules[0], data).value;
      var rest := EvalRules(h, rules[1..], data, true).value;
      assert ([Audit(rules[0], m)] + rest)[1..] == rest;
      if m {
        assert FirstMatch(h, rules, data, 0);
        var one := [Audit(rules[0], true)];
        assert one[1..] == [];
        assert MatchedScore(one) == ScoreOf(rules[0]);
      } else {
        ModesAgree(h, rules[1..], data);
        if ApplyTable(h, rules[1..], data, false).value.matched {
          var k :| FirstMatch(h, rules[1..], data, k) &&
                   ApplyTable(h, rules[1..], data, false).value.score == ScoreOf(rules[1..][k]);
          assert forall i :: 1 <= i < k + 1 ==> rules[i] == rules[1..][i - 1];
          assert FirstMatch(h, rules, data, k + 1);
        }
      }
    }
  }
}

=== FILE: engine.dfy ===
/**
 * `rule_engine.run`: extract the attributes of the input, then run every
 * active collection in ascending priority and key its result by collection
 * name, for one record or for every row of a frame.
 */
module Engine {
  import opened Base
  import opened DataStructure
  import opened DecisionTable
  import opened Collections
  import Priority
  import Registry
  import Extraction

  /**
   * The parts of a rule engine that `run` reads; `tables == None` until the
   * decision tables have been imported.
   */
  datatype Engine = Engine(structure: Structure, tables: Option<map<string, Table>>, collections: seq<Collection>)

  function CollPriority(c: Collection): Option<int> { Some(c.priority) }

  /** `sorted(self._collections, key=lambda x: x._priority)`. */
  function SortedCollections(cs: seq<Collection>): (r: seq<Collection>)
    ensures Priority.SortedBy(r, CollPriority)
    ensures multiset(r) == multiset(cs)
    ensures forall k :: Priority.WithKey(r, CollPriority, k) == Priority.WithKey(cs, CollPriority, k)
    ensures forall c :: c in r <==> c in cs
  {
    Priority.SortSpec(cs, CollPriority);
    forall c ensures c in Priority.SortByPriority(cs, CollPriority) <==> c in cs {
      Priority.SortMembers(cs, CollPriority, c);
    }
    Priority.SortByPriority(cs, CollPriority)
  }

  function ActiveNames(cs: seq<Collection>): set<string> {
    set c | c in cs && c.active :: c.name
  }

  /** What running one collection on fixed data against fixed tables gives. */
  function Runner(h: Host, data: Option<map<string, Value>>, tables: Option<map<string, Table>>):
    Collection -> Option<CollectionResult>
  {
    c => ApplyCollection(h, c, data, tables)
  }

  /**
   * The collection loop of `run`: inactive collections are skipped, each active
   * one writes its result under its name (a later one of the same name
   * overwrites an earlier one), and one that raises aborts the run.
   */
  function RunCollections(cs: seq<Collection>, apply: Collection -> Option<CollectionResult>,
                          acc: map<string, CollectionResult>): Option<map<string, CollectionResult>>
    decreases |cs|
  {
    if |cs| == 0 then Some(acc)
    else
      if !cs[0].active then RunCollections(cs[1..], apply, acc)
      else
        match apply(cs[0])
        case None => None
        case Some(res) => RunCollections(cs[1..], apply, acc[cs[0].name := res])
  }

  /** The loop aborts exactly when some active collection raises, whatever was written before. */
  lemma {:induction false} RunCollectionsAborts(cs: seq<Collection>, apply: Collection -> Option<CollectionResult>,
                                                acc: map<string, CollectionResult>)
    ensures RunCollections(cs, apply, acc).None? <==> exists c :: c in cs && c.active && apply(c).None?
    decreases |cs|
  {
    if |cs| > 0 {
      assert forall c :: c in cs <==> c == cs[0] || c in cs[1..];
      if cs[0].active && apply(cs[0]).Some? {
        RunCollectionsAborts(cs[1..], apply, acc[cs[0].name := apply(cs[0]).value]);
      } else if !cs[0].active {
        RunCollectionsAborts(cs[1..], apply, acc);
      }
    }
  }

  /** The names written are exactly those of the active collections, added to what was there. */
  lemma {:induction false} RunCollectionsKeys(cs: seq<Collection>, apply: Collection -> Option<CollectionResult>,
                                              acc: map<string, CollectionResult>)
    requires RunCollections(cs, apply, acc).Some?
    ensures RunCollections(cs, apply, acc).value.Keys == acc.Keys + ActiveNames(cs)
    decreases |cs|
  {
    if |cs| > 0 {
      RunCollectionsStep(cs, apply, acc);
      var next := if cs[0].active then acc[cs[0].name := apply(cs[0]).value] else acc;
      RunCollectionsKeys(cs[1..], apply, next);
      assert ActiveNames(cs) == (if cs[0].active then {cs[0].name} else {}) + ActiveNames(cs[1..]) by {
        assert forall c :: c in cs <==> c == cs[0] || c in cs[1..];
      }
    }
  }

  /** The active collections whose name is `n`. */
  function Named(cs: seq<Collection>, n: string): seq<Collection> {
    if |cs| == 0 then []
    else (if cs[0].active && cs[0].name == n then [cs[0]] else []) + Named(cs[1..], n)
  }

  /** One step of the collection loop, for a run that does not raise. */
  lemma RunCollectionsStep(cs: seq<Collection>, apply: Collection -> Option<CollectionResult>,
                           acc: map<string, CollectionResult>)
    requires |cs| > 0 && RunCollections(cs, apply, acc).Some?
    ensures cs[0].active ==> apply(cs[0]).Some?
    ensures var next := if cs[0].active then acc[cs[0].name := apply(cs[0]).value] else acc;
      RunCollections(cs, apply, acc) == RunCollections(cs[1..], apply, next)
  {
  }

  /** Names no active collection carries keep what they had. */
  lemma {:induction false} RunCollectionsUnnamed(cs: seq<Collection>, apply: Collection -> Option<CollectionResult>,
                                                 acc: map<string, CollectionResult>, n: string)
    requires RunCollections(cs, apply, acc).Some? && Named(cs, n) == []
    ensures n in RunCollections(cs, apply, acc).value <==> n in acc
    ensures n in acc ==> RunCollections(cs, apply, acc).value[n] == acc[n]
    decreases |cs|
  {
    if |cs| > 0 {
      RunCollectionsStep(cs, apply, acc);
      var next := if cs[0].active then acc[cs[0].name := apply(cs[0]).value] else acc;
      assert Named(cs[1..], n) == [] && !(cs[0].active && cs[0].name == n) by {
        assert Named(cs, n) == (if cs[0].active && cs[0].name == n then [cs[0]] else []) + Named(cs[1..], n);
      }
      RunCollectionsUnnamed(cs[1..], apply, next, n);
    }
  }

  /**
   * The entry written under a name comes from the last active collection of
   * that name.
   */
  lemma {:induction false} RunCollectionsValue(cs: seq<Collection>, apply: Collection -> Option<CollectionResult>,
                                               acc: map<string, CollectionResult>, n: string)
    requires RunCollections(cs, apply, acc).Some? && Named(cs, n) != []
    ensures var named := Named(cs, n);
      var m := RunCollections(cs, apply, acc).value;
      n in m && Some(m[n]) == apply(named[|named| - 1])
    decreases |cs|
  {
    RunCollectionsStep(cs, apply, acc);
    var next := if cs[0].active then acc[cs[0].name := apply(cs[0]).value] else acc;
    var named, rest := Named(cs, n), Named(cs[1..], n);
    var last := named[|named| - 1];
    var m := RunCollections(cs[1..], apply, next).value;
    assert RunCollections(cs, apply, acc).value == m;
    if rest != [] {
      RunCollectionsValue(cs[1..], apply, next, n);
      assert n in m && Some(m[n]) == apply(rest[|rest| - 1]);
      assert last == rest[|rest| - 1] by {
        if cs[0].active && cs[0].name == n {
          assert named == [cs[0]] + rest;
        } else {
          assert named == [] + rest;
        }
      }
    } else {
      assert cs[0].active && cs[0].name == n && last == cs[0] by {
        assert named == (if cs[0].active && cs[0].name == n then [cs[0]] else []) + rest;
      }
      RunCollectionsUnnamed(cs[1..], apply, next, n);
      assert n in m && m[n] == next[n];
    }
  }

  lemma {:induction false} NamedMembers(cs: seq<Collection>, n: string, c: Collection)
    ensures c in Named(cs, n) <==> c in cs && c.active && c.name == n
    ensures c in cs && c.active && c.name == n ==> Named(cs, n) != []
    decreases |cs|
  {
    if |cs| > 0 {
      NamedMembers(cs[1..], n, c);
      assert c in cs <==> c == cs[0] || c in cs[1..];
    }
  }

  /** The collections of `e` run, in ascending priority, on extracted data. */
  function RunOn(h: Host, e: Engine, data: Option<map<string, Value>>): (r: Option<map<string, CollectionResult>>)
    ensures r.Some? ==> r.value.Keys == ActiveNames(e.collections)
    ensures r.None? <==> exists c :: c in e.collections && c.active && ApplyCollection(h, c, data, e.tables).None?
  {
    var sorted := SortedCollections(e.collections);
    assert ActiveNames(sorted) == ActiveNames(e.collections);
    var r := RunCollections(sorted, Runner(h, data, e.tables), map[]);
    RunCollectionsAborts(sorted, Runner(h, data, e.tables), map[]);
    if r.Some? then RunCollectionsKeys(sorted, Runner(h, data, e.tables), map[]); r else r
  }

  /** `run(data)` with `dataframe == False`: a failed extraction hands `None` on to the collections. */
  function Run(h: Host, e: Engine, record: Value): (r: Option<map<string, CollectionResult>>)
    ensures r.Some? ==> r.value.Keys == ActiveNames(e.collections)
    ensures r.None? <==>
              exists c :: c in e.collections && c.active &&
                ApplyCollection(h, c, Extraction.ExtractRecord(h, e.structure, record), e.tables).None?
  {
    RunOn(h, e, Extraction.ExtractRecord(h, e.structure, record))
  }

  /** With one active collection of a name, the entry under that name is its result. */
  lemma RunCollectionsUnique(cs: seq<Collection>, apply: Collection -> Option<CollectionResult>, c: Collection)
    requires RunCollections(cs, apply, map[]).Some?
    requires c in cs && c.active
    requires forall d :: d in cs && d.active && d.name == c.name ==> d == c
    ensures c.name in RunCollections(cs, apply, map[]).value
    ensures Some(RunCollections(cs, apply, map[]).value[c.name]) == apply(c)
  {
    NamedMembers(cs, c.name, c);
    RunCollectionsValue(cs, apply, map[], c.name);
    var named := Named(cs, c.name);
    var last := named[|named| - 1];
    assert last == c by {
      assert last in named;
      NamedMembers(cs, c.name, last);
    }
  }

  /** In a list sorted by priority, the last active collection of a name has the highest priority of that name. */
  lemma {:induction false} NamedLastHighest(s: seq<Collection>, n: string)
    requires Priority.SortedBy(s, CollPriority) && Named(s, n) != []
    ensures var named := Named(s, n);
      forall d :: d in s && d.active && d.name == n ==> d.priority <= named[|named| - 1].priority
    decreases |s|
  {
    var named, rest := Named(s, n), Named(s[1..], n);
    var last := named[|named| - 1];
    assert named == (if s[0].active && s[0].name == n then [s[0]] else []) + rest;
    if rest != [] {
      assert Priority.SortedBy(s[1..], CollPriority) by {
        forall i, j | 0 <= i < j < |s[1..]|
          ensures Priority.Le(CollPriority(s[1..][i]), CollPriority(s[1..][j]))
        {
          assert s[1..][i] == s[i + 1] && s[1..][j] == s[j + 1];
        }
      }
      NamedLastHighest(s[1..], n);
      assert last == rest[|rest| - 1];
      assert last in rest;
      NamedMembers(s[1..], n, last);
      var j :| 0 <= j < |s[1..]| && s[1..][j] == last;
      assert Priority.Le(CollPriority(s[0]), CollPriority(s[j + 1]));
      forall d | d in s && d.active && d.name == n
        ensures d.priority <= last.priority
      {
        if d != s[0] {
          assert d in s[1..];
        }
      }
    } else {
      assert last == s[0];
      forall d | d in s && d.active && d.name == n
        ensures d.priority <= last.priority
      {
        if d in s[1..] {
          NamedMembers(s[1..], n, d);
        }
      }
    }
  }

  lemma NamedCons(x: Collection, t: seq<Collection>, n: string)
    ensures Named([x] + t, n) == (if x.active && x.name == n then [x] else []) + Named(t, n)
  {
    assert ([x] + t)[0] == x && ([x] + t)[1..] == t;
  }

  /** Filtering by priority never brings back a name that is absent. */
  lemma NamedNoneOfKey(t: seq<Collection>, n: string, k: Option<int>)
    requires Named(t, n) == []
    ensures Named(Priority.WithKey(t, CollPriority, k), n) == []
  {
    var w := Priority.WithKey(t, CollPriority, k);
    if Named(w, n) != [] {
      var x := Named(w, n)[0];
      NamedMembers(w, n, x);
      Priority.WithKeyMembers(t, CollPriority, k, x);
      NamedMembers(t, n, x);
      assert false;
    }
  }

  /** The active collection of name `n` that a run over `s` reaches last. */
  function LastNamed(s: seq<Collection>, n: string): Collection
    requires Named(s, n) != []
  {
    Named(s, n)[|Named(s, n)| - 1]
  }

  /** The active collections of name `n` sharing the priority of `LastNamed(s, n)`, in the order of `s`. */
  function TiedNamed(s: seq<Collection>, n: string): seq<Collection>
    requires Named(s, n) != []
  {
    Named(Priority.WithKey(s, CollPriority, CollPriority(LastNamed(s, n))), n)
  }

  /**
   * The last active collection of a name is also the last one of that name
   * among the collections sharing its priority.
   */
  lemma {:induction false} NamedLastOfKey(s: seq<Collection>, n: string)
    requires Named(s, n) != []
    ensures TiedNamed(s, n) != [] && TiedNamed(s, n)[|TiedNamed(s, n)| - 1] == LastNamed(s, n)
    decreases |s|
  {
    var rest := Named(s[1..], n);
    var head := if s[0].active && s[0].name == n then [s[0]] else [];
    assert Named(s, n) == head + rest;
    var last := LastNamed(s, n);
    var k := CollPriority(last);
    var w, w' := Priority.WithKey(s, CollPriority, k), Priority.WithKey(s[1..], CollPriority, k);
    assert w == (if CollPriority(s[0]) == k then [s[0]] else []) + w';
    var top, top' := Named(w, n), Named(w', n);
    if CollPriority(s[0]) == k {
      NamedCons(s[0], w', n);
      assert top == head + top';
    } else {
      assert w == w' by {
        assert [] + w' == w';
      }
    }
    if rest != [] {
      assert LastNamed(s[1..], n) == last;
      assert TiedNamed(s[1..], n) == top';
      NamedLastOfKey(s[1..], n);
    } else {
      assert last == s[0] && head == [s[0]];
      NamedNoneOfKey(s[1..], n, k);
      assert top == [s[0]] + [];
    }
  }

  /**
   * Collections run in ascending priority and a later write under a name
   * replaces an earlier one: each active name holds the result of the last
   * collection of that name in priority order. Its priority is the highest of
   * that name, and among the collections of that name and priority it is the
   * last one defined.
   */
  lemma RunOnValue(h: Host, e: Engine, data: Option<map<string, Value>>, n: string)
    requires RunOn(h, e, data).Some?
    requires n in ActiveNames(e.collections)
    ensures var named := Named(SortedCollections(e.collections), n);
      && named != []
      && Some(RunOn(h, e, data).value[n]) == ApplyCollection(h, named[|named| - 1], data, e.tables)
      && Winner(e.collections, n, named[|named| - 1])
  {
    var sorted := SortedCollections(e.collections);
    var apply := Runner(h, data, e.tables);
    var c :| c in e.collections && c.active && c.name == n;
    NamedMembers(sorted, n, c);
    assert RunOn(h, e, data) == RunCollections(sorted, apply, map[]);
    RunCollectionsValue(sorted, apply, map[], n);
    SortedWinner(e.collections, n);
    var named := Named(sorted, n);
    assert apply(named[|named| - 1]) == ApplyCollection(h, named[|named| - 1], data, e.tables);
  }

  /**
   * `w` is the collection of name `n` that priority order runs last: none of
   * that name has a higher priority, and among those of its priority it is
   * the last one defined.
   */
  ghost predicate Winner(cs: seq<Collection>, n: string, w: Collection) {
    && (forall d :: d in cs && d.active && d.name == n ==> d.priority <= w.priority)
    && var tied := Named(Priority.WithKey(cs, CollPriority, Some(w.priority)), n);
       tied != [] && tied[|tied| - 1] == w
  }

  /** The last active collection of a name in the sorted list is that name's winner. */
  lemma SortedWinner(cs: seq<Collection>, n: string)
    requires Named(SortedCollections(cs), n) != []
    ensures var named := Named(SortedCollections(cs), n);
      Winner(cs, n, named[|named| - 1])
  {
    var sorted := SortedCollections(cs);
    var named := Named(sorted, n);
    var w := named[|named| - 1];
    NamedLastHighest(sorted, n);
    NamedLastOfKey(sorted, n);
    assert Priority.WithKey(sorted, CollPriority, Some(w.priority)) == Priority.WithKey(cs, CollPriority, Some(w.priority));
    forall d | d in cs && d.active && d.name == n
      ensures d.priority <= w.priority
    {
      assert d in sorted;
    }
  }

  /** When collection names are unique, each active collection's entry is its own result. */
  lemma RunResult(h: Host, e: Engine, data: Option<map<string, Value>>, c: Collection)
    requires RunOn(h, e, data).Some?
    requires c in e.collections && c.active
    requires forall d :: d in e.collections && d.active && d.name == c.name ==> d == c
    ensures c.name in RunOn(h, e, data).value
    ensures Some(RunOn(h, e, data).value[c.name]) == ApplyCollection(h, c, data, e.tables)
  {
    var sorted := SortedCollections(e.collections);
    var apply := Runner(h, data, e.tables);
    assert RunOn(h, e, data) == RunCollections(sorted, apply, map[]);
    RunCollectionsUnique(sorted, apply, c);
    assert apply(c) == ApplyCollection(h, c, data, e.tables);
  }

  predicate HasActive(cs: seq<Collection>) {
    exists c :: c in cs && c.active
  }

  /**
   * The per-row loop of `run` over already extracted rows: `run` is what the
   * collections give on one row, and a row is written only when `ranAny`
   * (some collection is active).
   */
  function RunRows(rows: map<int, map<string, Value>>,
                   run: map<string, Value> -> Option<map<string, CollectionResult>>,
                   ranAny: bool): (r: Option<map<int, map<string, CollectionResult>>>)
    ensures r.None? <==> exists i :: i in rows && run(rows[i]).None?
    ensures r.Some? ==> r.value.Keys == (if ranAny then rows.Keys else {})
    ensures r.Some? ==> forall i :: i in r.value ==> run(rows[i]) == Some(r.value[i])
  {
    if exists i :: i in rows && run(rows[i]).None? then None
    else if !ranAny then Some(map[])
    else Some(map i | i in rows :: run(rows[i]).value)
  }

  /**
   * `run(data)` with `dataframe == True`, before `output_to_df`: one output
   * per row that some active collection ran on.
   */
  function RunFrame(h: Host, e: Engine, frame: map<int, Value>): (r: Option<map<int, map<string, CollectionResult>>>)
    ensures r.None? <==>
              || Extraction.ExtractFrame(h, e.structure, frame).None?
              || exists i :: i in frame && RunOn(h, e, Extraction.Extract(h, Extraction.Rows, e.structure, frame[i])).None?
    ensures r.Some? ==> r.value.Keys == (if HasActive(e.collections) then frame.Keys else {})
    ensures r.Some? ==> forall i :: i in r.value ==> r.value[i].Keys == ActiveNames(e.collections)
    ensures r.Some? ==> forall i :: i in r.value ==>
              var row := Extraction.Extract(h, Extraction.Rows, e.structure, frame[i]);
              row.Some? && RunOn(h, e, row) == Some(r.value[i])
  {
    match Extraction.ExtractFrame(h, e.structure, frame)
    case None => None
    case Some(rows) =>
      RunRows(rows, d => RunOn(h, e, Some(d)), HasActive(e.collections))
  }

  function CollName(c: Collection): string { c.name }

  /**
   * `add_collection`. The file-system work before the append (listing the
   * collections directory and, for a new name, creating the collection's
   * directory and its configuration table) is the parameter `filesOk`: when
   * any of it raises, the handler swallows the error and nothing is added.
   * Otherwise a new, not yet configured collection is appended, even when one
   * of that name already exists.
   */
  function AddCollection(e: Engine, name: string, priority: int, active: bool, filesOk: bool): (r: Engine)
    ensures !filesOk ==> r == e
    ensures r.structure == e.structure && r.tables == e.tables
    ensures filesOk ==> |r.collections| == |e.collections| + 1
    ensures filesOk ==> r.collections[..|e.collections|] == e.collections
    ensures filesOk ==> r.collections[|e.collections|] == Collection(name, priority, active, None)
  {
    if filesOk then e.(collections := e.collections + [Collection(name, priority, active, None)])
    else e
  }

  /** Until its configuration is imported, an active added collection makes every run raise. */
  lemma UnconfiguredCollectionAbortsRun(h: Host, e: Engine, name: string, priority: int,
                                        data: Option<map<string, Value>>)
    ensures RunOn(h, AddCollection(e, name, priority, true, true), data).None?
  {
    var e' := AddCollection(e, name, priority, true, true);
    var c := Collection(name, priority, true, None);
    assert c in e'.collections;
  }

  /**
   * `remove_collection` as written: it walks the list with an iterator while
   * removing from it, so the collection right after a removed one moves into
   * the removed slot and is never examined.
   */
  function RemoveFrom(cs: seq<Collection>, i: nat, n: string): (r: seq<Collection>)
    ensures |r| <= |cs|
    decreases |cs| - i
  {
    if i >= |cs| then cs
    else if cs[i].name == n then RemoveFrom(cs[..i] + cs[i + 1..], i + 1, n)
    else RemoveFrom(cs, i + 1, n)
  }

  function RemoveCollectionAsWritten(e: Engine, n: string): (r: Engine)
    ensures r.structure == e.structure && r.tables == e.tables
    ensures |r.collections| <= |e.collections|
    ensures Registry.Without(r.collections, CollName, n) == Registry.Without(e.collections, CollName, n)
  {
    RemoveFromKeepsOthers(e.collections, 0, n);
    e.(collections := RemoveFrom(e.collections, 0, n))
  }

  /** Two adjacent collections of one name: the second survives the removal. */
  lemma RemoveCollectionSkipsNeighbour(e: Engine, n: string, p: int, q: int)
    requires p != q
    requires e.collections == [Collection(n, p, true, None), Collection(n, q, true, None)]
    ensures RemoveCollectionAsWritten(e, n).collections == [Collection(n, q, true, None)]
    ensures exists c :: c in RemoveCollectionAsWritten(e, n).collections && c.name == n
  {
    var cs := e.collections;
    assert RemoveFrom(cs, 0, n) == RemoveFrom(cs[..0] + cs[1..], 1, n);
    assert cs[..0] + cs[1..] == [Collection(n, q, true, None)];
    assert RemoveCollectionAsWritten(e, n).collections[0].name == n;
  }

  /** `remove_collection` as intended: every collection of that name goes, and nothing else. */
  function RemoveCollection(e: Engine, n: string): (r: Engine)
    ensures r.structure == e.structure && r.tables == e.tables
    ensures forall c :: c in r.collections <==> c in e.collections && c.name != n
    ensures n !in ActiveNames(r.collections)
  {
    e.(collections := Registry.Without(e.collections, CollName, n))
  }

  /** A removed collection no longer appears in the output of a run. */
  lemma RemovedCollectionNotRun(h: Host, e: Engine, n: string, data: Option<map<string, Value>>)
    requires RunOn(h, RemoveCollection(e, n), data).Some?
    ensures n !in RunOn(h, RemoveCollection(e, n), data).value
  {
  }

  /**
   * The loop only ever deletes collections of the removed name: whatever it
   * leaves behind, the other collections are all there, in their order.
   */
  lemma {:induction false} RemoveFromKeepsOthers(cs: seq<Collection>, i: nat, n: string)
    ensures Registry.Without(RemoveFrom(cs, i, n), CollName, n) == Registry.Without(cs, CollName, n)
    decreases |cs| - i
  {
    if i < |cs| {
      if cs[i].name == n {
        var rest := cs[..i] + cs[i + 1..];
        assert RemoveFrom(cs, i, n) == RemoveFrom(rest, i + 1, n);
        RemoveFromKeepsOthers(rest, i + 1, n);
        var a, b := Registry.Without(cs[..i], CollName, n), Registry.Without(cs[i + 1..], CollName, n);
        Registry.WithoutAppend(cs[..i], cs[i + 1..], CollName, n);
        assert Registry.Without(rest, CollName, n) == a + b;
        assert cs == cs[..i] + ([cs[i]] + cs[i + 1..]);
        Registry.WithoutAppend(cs[..i], [cs[i]] + cs[i + 1..], CollName, n);
        Registry.WithoutAppend([cs[i]], cs[i + 1..], CollName, n);
        var nil := Registry.Without([cs[i]], CollName, n);
        assert nil == [] by {
          assert [cs[i]][1..] == [];
        }
        assert Registry.Without(cs, CollName, n) == a + (nil + b);
        assert nil + b == b;
      } else {
        RemoveFromKeepsOthers(cs, i + 1, n);
      }
    }
  }

  lemma {:induction false} RemoveFromNoneLeft(cs: seq<Collection>, i: nat, n: string)
    requires i <= |cs| && Registry.CountNamed(cs[i..], CollName, n) == 0
    ensures RemoveFrom(cs, i, n) == cs
    decreases |cs| - i
  {
    if i < |cs| {
      assert cs[i] in cs[i..];
      assert cs[i..][1..] == cs[i + 1..];
      RemoveFromNoneLeft(cs, i + 1, n);
    }
  }

  lemma {:induction false} RemoveFromSingle(cs: seq<Collection>, i: nat, n: string)
    requires i <= |cs| && Registry.CountNamed(cs[i..], CollName, n) <= 1
    ensures RemoveFrom(cs, i, n) == cs[..i] + Registry.Without(cs[i..], CollName, n)
    decreases |cs| - i
  {
    if i == |cs| {
      assert cs[..i] == cs;
    } else if cs[i].name == n {
      RemoveFromHit(cs, i, n);
    } else {
      assert Registry.CountNamed(cs[i + 1..], CollName, n) <= 1 by {
        assert cs[i..][1..] == cs[i + 1..];
      }
      RemoveFromSingle(cs, i + 1, n);
      RemoveFromMiss(cs, i, n);
    }
  }

  /** A collection of another name stays where it is, and the iterator moves past it. */
  lemma RemoveFromMiss(cs: seq<Collection>, i: nat, n: string)
    requires i < |cs| && cs[i].name != n
    requires RemoveFrom(cs, i + 1, n) == cs[..i + 1] + Registry.Without(cs[i + 1..], CollName, n)
    ensures RemoveFrom(cs, i, n) == cs[..i] + Registry.Without(cs[i..], CollName, n)
  {
    assert RemoveFrom(cs, i, n) == RemoveFrom(cs, i + 1, n);
    Registry.KeepInPrefix(cs, i, CollName, n);
  }

  /** Removing the only collection of that name still ahead of the iterator. */
  lemma RemoveFromHit(cs: seq<Collection>, i: nat, n: string)
    requires i < |cs| && cs[i].name == n && Registry.CountNamed(cs[i..], CollName, n) <= 1
    ensures RemoveFrom(cs, i, n) == cs[..i] + Registry.Without(cs[i..], CollName, n)
  {
    var rest := cs[..i] + cs[i + 1..];
    assert cs[i..][1..] == cs[i + 1..];
    assert Registry.CountNamed(cs[i + 1..], CollName, n) == 0 by {
      assert Registry.CountNamed(cs[i..], CollName, n) == 1 + Registry.CountNamed(cs[i + 1..], CollName, n);
    }
    assert Registry.Without(cs[i..], CollName, n) == cs[i + 1..] by {
      Registry.WithoutAbsent(cs[i + 1..], CollName, n);
      assert Registry.Without(cs[i..], CollName, n) == Registry.Without(cs[i + 1..], CollName, n);
    }
    assert RemoveFrom(cs, i, n) == RemoveFrom(rest, i + 1, n);
    if i + 1 <= |rest| {
      assert rest[i + 1..] == cs[i + 1..][1..];
      RemoveFromNoneLeft(rest, i + 1, n);
    }
  }

  /** With at most one collection of that name, the code as written removes it as intended. */
  lemma RemoveAgreesOnSingle(e: Engine, n: string)
    requires Registry.CountNamed(e.collections, CollName, n) <= 1
    ensures RemoveCollectionAsWritten(e, n) == RemoveCollection(e, n)
  {
    assert e.collections[0..] == e.collections;
    RemoveFromSingle(e.collections, 0, n);
    assert e.collections[..0] == [];
  }
}

=== FILE: extraction.dfy ===
/**
 * `apply_functions` and `extract_attributes`: the attributes are extracted in
 * priority order into one map, then the expressions run in priority order
 * over that map. Every result is an `Option`: `None` is the outer exception
 * handler of `extract_attributes`, which makes the whole call return `None`.
 */
module Extraction {
  import opened Base
  import opened Paths
  import opened DataStructure
  import Priority

  /** One transform: `f(v)` when its parameters are `None`, `f(v, **params)` otherwise. */
  function CallStep(h: Host, st: Step, v: Value): Option<Value>
  {
    match st.params
    case None => h.call(st.fn, v)
    case Some(ps) => h.callWith(st.fn, v, ps)
  }

  /** The loop of `apply_functions`: each step's output feeds the next; the first raise stops it. */
  function ApplySteps(h: Host, v: Value, steps: seq<Step>): (r: Option<Value>)
    ensures |steps| == 0 ==> r == Some(v)
    ensures |steps| > 0 && CallStep(h, steps[0], v).None? ==> r.None?
    decreases |steps|
  {
    if |steps| == 0 then Some(v)
    else
      match CallStep(h, steps[0], v)
      case None => None
      case Some(w) => ApplySteps(h, w, steps[1..])
  }

  /** `apply_functions`: the handler swallows a raise and the call returns `None`. */
  function ApplyFunctions(h: Host, v: Value, steps: seq<Step>): Value
  {
    ApplySteps(h, v, steps).GetOr(VNull)
  }

  /** Running a chain in two parts is running the second part on the first part's output. */
  lemma {:induction false} ApplyStepsAppend(h: Host, v: Value, s1: seq<Step>, s2: seq<Step>)
    ensures ApplySteps(h, v, s1 + s2) ==
              match ApplySteps(h, v, s1)
              case None => None
              case Some(w) => ApplySteps(h, w, s2)
    decreases |s1|
  {
    if |s1| == 0 {
      assert s1 + s2 == s2;
    } else {
      assert (s1 + s2)[0] == s1[0];
      assert (s1 + s2)[1..] == s1[1..] + s2;
      match CallStep(h, s1[0], v)
      case None =>
      case Some(w) => ApplyStepsAppend(h, w, s1[1..], s2);
    }
  }

  /** The chain one step at a time from the front: a chain is its prefix followed by its last call. */
  lemma ApplyStepsLast(h: Host, v: Value, steps: seq<Step>)
    requires |steps| > 0
    ensures ApplySteps(h, v, steps) ==
              match ApplySteps(h, v, steps[..|steps| - 1])
              case None => None
              case Some(w) => CallStep(h, steps[|steps| - 1], w)
  {
    var n := |steps|;
    assert steps == steps[..n - 1] + [steps[n - 1]];
    ApplyStepsAppend(h, v, steps[..n - 1], [steps[n - 1]]);
    match ApplySteps(h, v, steps[..n - 1])
    case None =>
    case Some(w) =>
      assert [steps[n - 1]][1..] == [];
  }

  /**
   * The chain raises exactly when some step raises on the value the steps
   * before it produced; otherwise every call succeeded in turn.
   */
  lemma {:induction false} ApplyStepsRaises(h: Host, v: Value, steps: seq<Step>)
    ensures ApplySteps(h, v, steps).None? <==>
              exists i :: 0 <= i < |steps| && ApplySteps(h, v, steps[..i]).Some? &&
                          CallStep(h, steps[i], ApplySteps(h, v, steps[..i]).value).None?
    decreases |steps|
  {
    if |steps| > 0 {
      var n := |steps|;
      var p := steps[..n - 1];
      ApplyStepsLast(h, v, steps);
      ApplyStepsRaises(h, v, p);
      forall i | 0 <= i < n - 1
        ensures p[..i] == steps[..i] && p[i] == steps[i]
      {
      }
      if ApplySteps(h, v, steps).None? {
        if ApplySteps(h, v, p).None? {
          var i :| 0 <= i < |p| && ApplySteps(h, v, p[..i]).Some? &&
                   CallStep(h, p[i], ApplySteps(h, v, p[..i]).value).None?;
          assert p[..i] == steps[..i] && p[i] == steps[i];
        } else {
          assert steps[..n - 1] == p;
        }
      } else {
        assert ApplySteps(h, v, p).Some?;
        forall i | 0 <= i < n
          ensures !(ApplySteps(h, v, steps[..i]).Some? &&
                    CallStep(h, steps[i], ApplySteps(h, v, steps[..i]).value).None?)
        {
          if i < n - 1 {
            assert p[..i] == steps[..i] && p[i] == steps[i];
          }
        }
      }
    }
  }

  /** A step that raises on the value reaching it makes `apply_functions` return `None`. */
  lemma FailingStepGivesNull(h: Host, v: Value, steps: seq<Step>, i: int, w: Value)
    requires 0 <= i < |steps|
    requires ApplySteps(h, v, steps[..i]) == Some(w)
    requires CallStep(h, steps[i], w).None?
    ensures ApplyFunctions(h, v, steps) == VNull
  {
    assert steps == steps[..i] + steps[i..];
    ApplyStepsAppend(h, v, steps[..i], steps[i..]);
    assert steps[i..][0] == steps[i];
  }

  /** `dtype(default) if default != None else None`. */
  function DefaultValue(h: Host, a: Attribute): Option<Value>
  {
    if a.default == VNull then Some(VNull) else h.coerce(a.dtype, a.default)
  }

  /** `dtype(v)` without a function dictionary, `dtype(apply_functions(v, ...))` with one. */
  function Convert(h: Host, a: Attribute, v: Value): Option<Value>
  {
    match a.functions
    case None => h.coerce(a.dtype, v)
    case Some(steps) => h.coerce(a.dtype, ApplyFunctions(h, v, steps))
  }

  /** Whether `'.'.join(path)` succeeds: every subscript is a string. */
  predicate Joinable(path: seq<Key>) {
    forall i :: 0 <= i < |path| ==> path[i].KStr?
  }

  /**
   * One attribute of a single record. A failing lookup or coercion falls back
   * to the default; the fallback handler itself raises (so `None`: the whole
   * extraction aborts) when the default's coercion raises or the path holds an
   * integer subscript, which `'.'.join` cannot print.
   */
  function RecordValue(h: Host, a: Attribute, record: Value): (r: Option<Value>)
    ensures Lookup(record, a.path).Ok? && Convert(h, a, Lookup(record, a.path).value).Some? ==>
              r == Convert(h, a, Lookup(record, a.path).value)
    ensures Lookup(record, a.path).Err? && Joinable(a.path) ==> r == DefaultValue(h, a)
    ensures Lookup(record, a.path).Err? || Convert(h, a, Lookup(record, a.path).value).None? ==>
              r == (if Joinable(a.path) then DefaultValue(h, a) else None)
    ensures Joinable(a.path) && DefaultValue(h, a).Some? ==> r.Some?
    ensures r.None? ==> !Joinable(a.path) || DefaultValue(h, a).None?
  {
    var attempt :=
      match Lookup(record, a.path)
      case Err(_) => None
      case Ok(v) => Convert(h, a, v);
    if attempt.Some? then attempt
    else if !Joinable(a.path) then None
    else DefaultValue(h, a)
  }

  /**
   * One attribute of one dataframe row. Only `KeyError` is handled: a missing
   * key or an empty cell gives the default, while any other raise, including a
   * failing coercion, aborts the whole extraction.
   */
  function RowValue(h: Host, a: Attribute, row: Value): (r: Option<Value>)
    ensures Lookup(row, a.path) == Err(KeyError) ==> r == DefaultValue(h, a)
    ensures Lookup(row, a.path) == Ok(VNull) ==> r == DefaultValue(h, a)
    ensures Lookup(row, a.path).Err? && Lookup(row, a.path).error != KeyError ==> r.None?
    ensures Lookup(row, a.path).Ok? && Lookup(row, a.path).value != VNull ==>
              r == Convert(h, a, Lookup(row, a.path).value)
  {
    match Lookup(row, a.path)
    case Err(KeyError) => DefaultValue(h, a)
    case Err(_) => None
    case Ok(v) => if v == VNull then DefaultValue(h, a) else Convert(h, a, v)
  }

  /** Which branch of `extract_attributes` runs: a single record or the rows of a dataframe. */
  datatype Layout = Records | Rows

  function ValueOf(h: Host, layout: Layout, a: Attribute, data: Value): Option<Value>
  {
    match layout
    case Records => RecordValue(h, a, data)
    case Rows => RowValue(h, a, data)
  }

  /** The attribute loop: each attribute's value is stored under its name, in order. */
  function ExtractAttributes(h: Host, layout: Layout, attrs: seq<Attribute>, data: Value,
                             acc: map<string, Value>): (r: Option<map<string, Value>>)
    ensures r.Some? ==> r.value.Keys == acc.Keys + set a | a in attrs :: a.name
    ensures r.None? <==> exists a :: a in attrs && ValueOf(h, layout, a, data).None?
    decreases |attrs|
  {
    if |attrs| == 0 then Some(acc)
    else
      match ValueOf(h, layout, attrs[0], data)
      case None => None
      case Some(v) =>
        var r := ExtractAttributes(h, layout, attrs[1..], data, acc[attrs[0].name := v]);
        assert forall a :: a in attrs <==> a == attrs[0] || a in attrs[1..];
        r
  }

  /**
   * Independence: an attribute whose name no other attribute shares gets
   * exactly its own value, whatever happens to the others.
   */
  lemma {:induction false} ExtractedValue(h: Host, layout: Layout, attrs: seq<Attribute>, data: Value,
                                          acc: map<string, Value>, a: Attribute)
    requires ExtractAttributes(h, layout, attrs, data, acc).Some?
    requires a in attrs
    requires forall b :: b in attrs && b.name == a.name ==> b == a
    ensures ValueOf(h, layout, a, data).Some?
    ensures ExtractAttributes(h, layout, attrs, data, acc).value[a.name] == ValueOf(h, layout, a, data).value
    decreases |attrs|
  {
    var v := ValueOf(h, layout, attrs[0], data).value;
    var acc' := acc[attrs[0].name := v];
    if attrs[0] == a {
      if a in attrs[1..] {
        ExtractedValue(h, layout, attrs[1..], data, acc', a);
      } else {
        ExtractedUntouched(h, layout, attrs[1..], data, acc', a.name);
      }
    } else {
      ExtractedValue(h, layout, attrs[1..], data, acc', a);
    }
  }

  /** A name no remaining attribute carries keeps the value it had. */
  lemma {:induction false} ExtractedUntouched(h: Host, layout: Layout, attrs: seq<Attribute>, data: Value,
                                              acc: map<string, Value>, n: string)
    requires ExtractAttributes(h, layout, attrs, data, acc).Some?
    requires n in acc
    requires forall b :: b in attrs ==> b.name != n
    ensures ExtractAttributes(h, layout, attrs, data, acc).value[n] == acc[n]
    decreases |attrs|
  {
    if |attrs| > 0 {
      var v := ValueOf(h, layout, attrs[0], data).value;
      assert attrs[0] in attrs;
      ExtractedUntouched(h, layout, attrs[1..], data, acc[attrs[0].name := v], n);
    }
  }

  /** The expression loop: each body runs on the map as it stands; a raising body is skipped. */
  function ApplyExpressions(h: Host, exprs: seq<Expression>, data: map<string, Value>): (r: map<string, Value>)
    ensures (forall e :: e in exprs ==> forall d :: h.exec(e.body, d).None?) ==> r == data
    decreases |exprs|
  {
    if |exprs| == 0 then data
    else
      var next := match h.exec(exprs[0].body, data) case Some(d) => d case None => data;
      var r := ApplyExpressions(h, exprs[1..], next);
      assert forall e :: e in exprs[1..] ==> e in exprs;
      r
  }

  lemma {:induction false} ApplyExpressionsAppend(h: Host, s1: seq<Expression>, s2: seq<Expression>,
                                                  data: map<string, Value>)
    ensures ApplyExpressions(h, s1 + s2, data) == ApplyExpressions(h, s2, ApplyExpressions(h, s1, data))
    decreases |s1|
  {
    if |s1| == 0 {
      assert s1 + s2 == s2;
    } else {
      assert (s1 + s2)[0] == s1[0];
      assert (s1 + s2)[1..] == s1[1..] + s2;
      var next := match h.exec(s1[0].body, data) case Some(d) => d case None => data;
      ApplyExpressionsAppend(h, s1[1..], s2, next);
    }
  }

  /** The first body runs on the input map; when it succeeds, the rest run on the map it left. */
  lemma ApplyExpressionsFirst(h: Host, e: Expression, s: seq<Expression>, data: map<string, Value>)
    ensures ApplyExpressions(h, [e] + s, data) ==
              ApplyExpressions(h, s, match h.exec(e.body, data) case Some(d) => d case None => data)
  {
    assert ([e] + s)[0] == e && ([e] + s)[1..] == s;
  }

  /**
   * An expression anywhere in the list runs on the map the expressions before
   * it left; its writes, when it succeeds, are what the expressions after it see.
   */
  lemma ExpressionStep(h: Host, s1: seq<Expression>, e: Expression, s2: seq<Expression>,
                       data: map<string, Value>)
    ensures var mid := ApplyExpressions(h, s1, data);
      ApplyExpressions(h, s1 + [e] + s2, data) ==
        ApplyExpressions(h, s2, match h.exec(e.body, mid) case Some(d) => d case None => mid)
  {
    var mid := ApplyExpressions(h, s1, data);
    assert s1 + [e] + s2 == s1 + ([e] + s2);
    ApplyExpressionsAppend(h, s1, [e] + s2, data);
    ApplyExpressionsFirst(h, e, s2, mid);
  }

  /** An expression that raises on the map reaching it is as if it were not configured. */
  lemma FailingExpressionSkipped(h: Host, s1: seq<Expression>, e: Expression, s2: seq<Expression>,
                                 data: map<string, Value>)
    requires h.exec(e.body, ApplyExpressions(h, s1, data)).None?
    ensures ApplyExpressions(h, s1 + [e] + s2, data) == ApplyExpressions(h, s1 + s2, data)
  {
    var mid := ApplyExpressions(h, s1, data);
    ApplyExpressionsAppend(h, s1 + [e], s2, data);
    ApplyExpressionsAppend(h, s1, [e], data);
    assert [e][1..] == [];
    assert ApplyExpressions(h, [e], mid) == mid;
    ApplyExpressionsAppend(h, s1, s2, data);
  }

  /** The attribute phase of `extract_attributes`, in priority order. */
  function AttributeMap(h: Host, layout: Layout, ds: Structure, data: Value): (r: Option<map<string, Value>>)
    ensures r.Some? ==> r.value.Keys == set a | a in ds.attributes :: a.name
    ensures r.None? <==> exists a :: a in ds.attributes && ValueOf(h, layout, a, data).None?
  {
    var sorted := Priority.SortByPriority(ds.attributes, AttrPriority);
    var r := ExtractAttributes(h, layout, sorted, data, map[]);
    assert forall a :: a in sorted <==> a in ds.attributes by {
      forall a { Priority.SortMembers(ds.attributes, AttrPriority, a); }
    }
    r
  }

  /** In a valid structure every attribute is stored under its name with its own value. */
  lemma AttributeMapValues(h: Host, layout: Layout, ds: Structure, data: Value, a: Attribute)
    requires Valid(ds)
    requires AttributeMap(h, layout, ds, data).Some?
    requires a in ds.attributes
    ensures ValueOf(h, layout, a, data).Some?
    ensures AttributeMap(h, layout, ds, data).value[a.name] == ValueOf(h, layout, a, data).value
  {
    var sorted := Priority.SortByPriority(ds.attributes, AttrPriority);
    Priority.SortMembers(ds.attributes, AttrPriority, a);
    forall b | b in sorted && b.name == a.name
      ensures b == a
    {
      Priority.SortMembers(ds.attributes, AttrPriority, b);
      var i :| 0 <= i < |ds.attributes| && ds.attributes[i] == a;
      var j :| 0 <= j < |ds.attributes| && ds.attributes[j] == b;
      assert AttrName(ds.attributes[i]) == AttrName(ds.attributes[j]);
      assert i == j;
    }
    ExtractedValue(h, layout, sorted, data, map[], a);
  }

  /**
   * One attribute's failure does not stop the others: when every path can be
   * printed and every default coerces, the record branch never aborts and every
   * attribute name is a key of the result.
   */
  lemma RecordExtractionTotal(h: Host, ds: Structure, record: Value)
    requires forall a :: a in ds.attributes ==> Joinable(a.path) && DefaultValue(h, a).Some?
    ensures AttributeMap(h, Records, ds, record).Some?
    ensures AttributeMap(h, Records, ds, record).value.Keys == set a | a in ds.attributes :: a.name
  {
    forall a | a in ds.attributes
      ensures ValueOf(h, Records, a, record).Some?
    {
      assert RecordValue(h, a, record).Some?;
    }
  }

  /**
   * `extract_attributes` on one input: the attributes build the map, then the
   * expressions run over it in priority order (`Priority.SortSpec` says what
   * that order is).
   */
  function Extract(h: Host, layout: Layout, ds: Structure, data: Value): (r: Option<map<string, Value>>)
    ensures r.None? <==> exists a :: a in ds.attributes && ValueOf(h, layout, a, data).None?
    ensures r.Some? ==> r.value == ApplyExpressions(h, Priority.SortByPriority(ds.expressions, ExprPriority), AttributeMap(h, layout, ds, data).value)
    ensures r.Some? && ds.expressions == [] ==> r.value.Keys == set a | a in ds.attributes :: a.name
  {
    match AttributeMap(h, layout, ds, data)
    case None => None
    case Some(m) => Some(ApplyExpressions(h, Priority.SortByPriority(ds.expressions, ExprPriority), m))
  }

  /** `extract_attributes(data, dataframe=False)`. */
  function ExtractRecord(h: Host, ds: Structure, record: Value): Option<map<string, Value>>
  {
    Extract(h, Records, ds, record)
  }

  /**
   * `extract_attributes(data, dataframe=True)` over the rows of the frame, keyed
   * by row index; one aborting row aborts the whole call.
   */
  function ExtractFrame(h: Host, ds: Structure, frame: map<int, Value>): (r: Option<map<int, map<string, Value>>>)
    ensures r.Some? ==> r.value.Keys == frame.Keys
    ensures r.Some? ==> forall i :: i in frame ==> Extract(h, Rows, ds, frame[i]) == Some(r.value[i])
    ensures r.None? <==> exists i, a :: i in frame && a in ds.attributes && RowValue(h, a, frame[i]).None?
  {
    if exists i :: i in frame && Extract(h, Rows, ds, frame[i]).None? then None
    else Some(map i | i in frame :: Extract(h, Rows, ds, frame[i]).value)
  }
}

=== FILE: functions.dfy ===
/**
 * The custom transforms of `functions.py` that attribute function
 * dictionaries call by name: `concat`, `add` and `cabin`.
 */
module Functions {
  import opened Base
  import opened Paths

  /** The position of the first item on which `f` raises, or `|items|` when none does. */
  function FirstFailure(items: seq<Value>, f: Value -> Result<Value>): (k: nat)
    ensures k <= |items|
    ensures forall j :: 0 <= j < k ==> f(items[j]).Ok?
    ensures k < |items| ==> f(items[k]).Err?
  {
    if |items| == 0 || f(items[0]).Err? then 0
    else 1 + FirstFailure(items[1..], f)
  }

  /** The loop of `concat` for any per-item step `f`: every output in order, or the first raise. */
  function Each(items: seq<Value>, f: Value -> Result<Value>): Result<seq<Value>>
  {
    if |items| == 0 then Ok([])
    else
      match f(items[0])
      case Err(e) => Err(e)
      case Ok(v) =>
        match Each(items[1..], f)
        case Err(e) => Err(e)
        case Ok(rest) => Ok([v] + rest)
  }

  /**
   * The loop succeeds exactly when every item does, with one output per item
   * in order; otherwise it raises the error of the first item that fails.
   */
  lemma {:induction false} EachSpec(items: seq<Value>, f: Value -> Result<Value>)
    ensures var r := Each(items, f);
      && (r.Ok? ==> |r.value| == |items|)
      && (r.Ok? ==> forall i {:trigger items[i]} :: 0 <= i < |items| ==> f(items[i]) == Ok(r.value[i]))
      && (r.Ok? <==> forall i :: 0 <= i < |items| ==> f(items[i]).Ok?)
      && (r.Err? ==> f(items[FirstFailure(items, f)]) == Err(r.error))
  {
    if |items| > 0 {
      EachSpec(items[1..], f);
      assert forall i :: 1 <= i < |items| ==> items[i] == items[1..][i - 1];
      if f(items[0]).Ok? && Each(items[1..], f).Err? {
        assert items[1..][FirstFailure(items[1..], f)] == items[FirstFailure(items, f)];
      }
    }
  }

  lemma {:induction false} EachAppend(xs: seq<Value>, ys: seq<Value>, f: Value -> Result<Value>)
    requires Each(xs, f).Ok? && Each(ys, f).Ok?
    ensures Each(xs + ys, f) == Ok(Each(xs, f).value + Each(ys, f).value)
  {
    if |xs| == 0 {
      assert xs + ys == ys;
      assert Each(xs, f).value == [];
      assert Each(xs + ys, f) == Each(ys, f);
      assert [] + Each(ys, f).value == Each(ys, f).value;
    } else {
      var zs := xs + ys;
      var v := f(xs[0]).value;
      var a', b := Each(xs[1..], f).value, Each(ys, f).value;
      assert Each(xs, f).value == [v] + a';
      assert zs[0] == xs[0] && zs[1..] == xs[1..] + ys;
      EachAppend(xs[1..], ys, f);
      assert Each(zs, f) == Ok([v] + (a' + b)) by {
        assert f(zs[0]) == Ok(v);
        assert Each(zs[1..], f) == Ok(a' + b);
      }
      assert [v] + (a' + b) == ([v] + a') + b;
    }
  }

  function Subscript(key: Key): Value -> Result<Value> {
    v => Getitem(v, key)
  }

  /**
   * `concat(dict_list, key)`: `item[key]` for every item, in order; the first
   * item whose subscript raises makes the whole call raise with its error.
   */
  function Concat(items: seq<Value>, key: Key): (r: Result<seq<Value>>)
    ensures r.Ok? ==> |r.value| == |items|
    ensures r.Ok? ==> forall i :: 0 <= i < |items| ==> Getitem(items[i], key) == Ok(r.value[i])
    ensures r.Ok? <==> forall i :: 0 <= i < |items| ==> Getitem(items[i], key).Ok?
    ensures r.Err? ==>
              var k := FirstFailure(items, Subscript(key));
              && k < |items| && Getitem(items[k], key) == Err(r.error)
              && forall j :: 0 <= j < k ==> Getitem(items[j], key).Ok?
  {
    EachSpec(items, Subscript(key));
    Each(items, Subscript(key))
  }

  /** A dictionary that lacks the key makes `concat` raise `KeyError`. */
  lemma ConcatMissingKey(items: seq<Value>, n: string)
    requires forall i :: 0 <= i < |items| ==> items[i].VDict?
    requires exists i :: 0 <= i < |items| && n !in items[i].entries
    ensures Concat(items, KStr(n)) == Err(KeyError)
  {
    var i :| 0 <= i < |items| && n !in items[i].entries;
    assert Getitem(items[i], KStr(n)).Err?;
    var k := FirstFailure(items, Subscript(KStr(n)));
    assert items[k].VDict?;
  }

  /** `concat` distributes over list concatenation when both halves succeed. */
  lemma ConcatAppend(xs: seq<Value>, ys: seq<Value>, key: Key)
    requires Concat(xs, key).Ok? && Concat(ys, key).Ok?
    ensures Concat(xs + ys, key) == Ok(Concat(xs, key).value + Concat(ys, key).value)
  {
    EachAppend(xs, ys, Subscript(key));
  }

  const Suffix: string := " yo yo yo this yo boy"

  /** `add(string)`: the fixed suffix appended. */
  function Add(s: string): (r: string)
    ensures |r| == |s| + |Suffix|
    ensures r[..|s|] == s && r[|s|..] == Suffix
  {
    s + Suffix
  }

  /** `cabin(string)`: the first character, or `IndexError` on the empty string. */
  function Cabin(s: string): (r: Result<string>)
    ensures r.Err? <==> |s| == 0
    ensures r.Err? ==> r.error == IndexError
    ensures r.Ok? ==> |r.value| == 1 && r.value[0] == s[0]
  {
    if |s| == 0 then Err(IndexError) else Ok([s[0]])
  }

  /** `cabin` is the subscript `s[0]` of the general path lookup. */
  lemma CabinIsSubscript(s: string)
    ensures Cabin(s).Ok? <==> Getitem(VStr(s), KInt(0)).Ok?
    ensures Cabin(s).Ok? ==> Getitem(VStr(s), KInt(0)) == Ok(VStr(Cabin(s).value))
    ensures Cabin(s).Err? ==> Getitem(VStr(s), KInt(0)) == Err(Cabin(s).error)
  {
  }

  /** After `add`, `cabin` never raises and keeps the first character of the whole result. */
  lemma CabinOfAdd(s: string)
    ensures Cabin(Add(s)).Ok?
    ensures Cabin(Add(s)).value == (if |s| == 0 then [Suffix[0]] else [s[0]])
  {
    assert |Suffix| > 0;
    if |s| > 0 {
      assert Add(s)[0] == Add(s)[..|s|][0];
    } else {
      assert Add(s)[0] == Add(s)[|s|..][0];
    }
  }
}

=== FILE: paths.dfy ===
/**
 * Attribute paths: `reduce(operator.getitem, path, data)`, one Python
 * subscript after another, with the exception each failing subscript raises.
 */
module Paths {
  import opened Base

  /** Python's index normalisation: a negative index counts from the end. */
  function PyIndex(len: nat, i: int): (r: Option<nat>)
    ensures r.Some? <==> -(len as int) <= i < len
    ensures r.Some? ==> r.value < len && r.value % len == i % len
  {
    if 0 <= i < len then Some(i)
    else if -(len as int) <= i < 0 then Some(len + i)
    else None
  }

  /** `v[k]` for one subscript. */
  function Getitem(v: Value, k: Key): (r: Result<Value>)
    ensures r.Err? && r.error == KeyError ==> v.VDict? && (k.KStr? ==> k.s !in v.entries)
    ensures r.Err? && r.error == IndexError ==> (v.VList? || v.VStr?) && k.KInt?
    ensures v.VDict? && k.KStr? ==> (r.Ok? <==> k.s in v.entries)
    ensures v.VDict? && k.KStr? && k.s in v.entries ==> r == Ok(v.entries[k.s])
    ensures v.VList? && k.KInt? ==>
              match PyIndex(|v.items|, k.i)
              case Some(j) => r == Ok(v.items[j])
              case None => r == Err(IndexError)
    ensures v.VStr? && k.KInt? ==>
              match PyIndex(|v.s|, k.i)
              case Some(j) => r == Ok(VStr([v.s[j]]))
              case None => r == Err(IndexError)
    ensures !((v.VDict? && k.KStr?) || ((v.VList? || v.VStr?) && k.KInt?)) ==>
              r == Err(if v.VDict? then KeyError else TypeError)
  {
    match v
    case VDict(m) =>
      (match k
       case KStr(s) => if s in m then Ok(m[s]) else Err(KeyError)
       case KInt(_) => Err(KeyError))
    case VList(xs) =>
      (match k
       case KInt(i) =>
         (match PyIndex(|xs|, i)
          case Some(j) => Ok(xs[j])
          case None => Err(IndexError))
       case KStr(_) => Err(TypeError))
    case VStr(s) =>
      (match k
       case KInt(i) =>
         (match PyIndex(|s|, i)
          case Some(j) => Ok(VStr([s[j]]))
          case None => Err(IndexError))
       case KStr(_) => Err(TypeError))
    case _ => Err(TypeError)
  }

  /** `reduce(operator.getitem, path, v)`: stops at the first failing subscript. */
  function Lookup(v: Value, path: seq<Key>): Result<Value>
    decreases |path|
  {
    if |path| == 0 then Ok(v)
    else
      match Getitem(v, path[0])
      case Err(e) => Err(e)
      case Ok(w) => Lookup(w, path[1..])
  }

  /** The path that names nested dictionary keys. */
  function StrPath(names: seq<string>): (p: seq<Key>)
    ensures |p| == |names|
    ensures forall i :: 0 <= i < |names| ==> p[i] == KStr(names[i])
  {
    if |names| == 0 then [] else [KStr(names[0])] + StrPath(names[1..])
  }

  /** A record holding `leaf` under the nested keys `names`. */
  function Nest(names: seq<string>, leaf: Value): Value
  {
    if |names| == 0 then leaf else VDict(map[names[0] := Nest(names[1..], leaf)])
  }

  /** Looking up a path in two steps is looking up its two halves in turn. */
  lemma {:induction false} LookupAppend(v: Value, p: seq<Key>, q: seq<Key>)
    ensures Lookup(v, p + q) ==
              match Lookup(v, p)
              case Err(e) => Err(e)
              case Ok(w) => Lookup(w, q)
    decreases |p|
  {
    if |p| == 0 {
      assert p + q == q;
    } else {
      assert (p + q)[0] == p[0];
      assert (p + q)[1..] == p[1..] + q;
      match Getitem(v, p[0])
      case Err(e) =>
      case Ok(w) => LookupAppend(w, p[1..], q);
    }
  }

  /** Nesting a value under a key path and looking the path up gives the value back. */
  lemma {:induction false} LookupNest(names: seq<string>, leaf: Value)
    ensures Lookup(Nest(names, leaf), StrPath(names)) == Ok(leaf)
  {
    if |names| > 0 {
      var p := StrPath(names);
      assert p[0] == KStr(names[0]);
      assert p[1..] == StrPath(names[1..]);
      LookupNest(names[1..], leaf);
    }
  }

  /** A path whose first key is missing from a dictionary record raises `KeyError`. */
  lemma MissingKeyRaisesKeyError(m: map<string, Value>, name: string, rest: seq<Key>)
    requires name !in m
    ensures Lookup(VDict(m), [KStr(name)] + rest) == Err(KeyError)
  {
    assert ([KStr(name)] + rest)[0] == KStr(name);
  }
}

=== FILE: priority.dfy ===
/**
 * Priority ordering. Attributes and expressions are sorted with Python's
 * stable `sorted` on the key `(priority is None, priority)`; collections are
 * sorted on their (always present) priority. Both are one stable sort over an
 * optional integer key, modelled here by insertion sort.
 */
module Priority {
  import opened Base

  /**
   * The order of the key `(p is None, p)`: every priority comes before "no
   * priority", priorities compare as numbers, and two missing priorities tie.
   */
  predicate Le(p: Option<int>, q: Option<int>) {
    q.None? || (p.Some? && p.value <= q.value)
  }

  ghost predicate SortedBy<T>(s: seq<T>, key: T -> Option<int>) {
    forall i, j | 0 <= i < j < |s| :: Le(key(s[i]), key(s[j]))
  }

  /** The elements of `s` whose key is `k`, in their order in `s`. */
  function WithKey<T>(s: seq<T>, key: T -> Option<int>, k: Option<int>): seq<T> {
    if |s| == 0 then []
    else (if key(s[0]) == k then [s[0]] else []) + WithKey(s[1..], key, k)
  }

  /** Places `x` before the first element whose key is not below its own. */
  function Insert<T>(x: T, s: seq<T>, key: T -> Option<int>): seq<T> {
    if |s| == 0 || Le(key(x), key(s[0])) then [x] + s
    else [s[0]] + Insert(x, s[1..], key)
  }

  /** `sorted(s, key=...)`. */
  function SortByPriority<T>(s: seq<T>, key: T -> Option<int>): seq<T> {
    if |s| == 0 then [] else Insert(s[0], SortByPriority(s[1..], key), key)
  }

  lemma {:induction false} InsertPermutes<T>(x: T, s: seq<T>, key: T -> Option<int>)
    ensures multiset(Insert(x, s, key)) == multiset(s) + multiset{x}
  {
    if |s| > 0 && !Le(key(x), key(s[0])) {
      InsertPermutes(x, s[1..], key);
      assert s == [s[0]] + s[1..];
    }
  }

  lemma {:induction false} InsertSorted<T>(x: T, s: seq<T>, key: T -> Option<int>)
    requires SortedBy(s, key)
    ensures SortedBy(Insert(x, s, key), key)
  {
    if |s| == 0 || Le(key(x), key(s[0])) {
      var r := [x] + s;
      forall i, j | 0 <= i < j < |r|
        ensures Le(key(r[i]), key(r[j]))
      {
        if i == 0 {
          assert r[j] == s[j - 1];
          assert Le(key(s[0]), key(s[j - 1])) || j == 1;
        }
      }
    } else {
      var t := Insert(x, s[1..], key);
      InsertSorted(x, s[1..], key);
      InsertPermutes(x, s[1..], key);
      var r := [s[0]] + t;
      forall i, j | 0 <= i < j < |r|
        ensures Le(key(r[i]), key(r[j]))
      {
        if i == 0 {
          assert r[j] in multiset(t);
          if r[j] == x {
          } else {
            assert r[j] in multiset(s[1..]);
            var k :| 0 <= k < |s[1..]| && s[1..][k] == r[j];
            assert s[k + 1] == r[j];
          }
        } else {
          assert r[i] == t[i - 1] && r[j] == t[j - 1];
        }
      }
    }
  }

  /** Inserting `x` adds it to its own key's run, ahead of the equal keys already there. */
  lemma {:induction false} InsertStable<T>(x: T, s: seq<T>, key: T -> Option<int>, k: Option<int>)
    ensures WithKey(Insert(x, s, key), key, k) ==
              (if key(x) == k then [x] else []) + WithKey(s, key, k)
  {
    if |s| == 0 || Le(key(x), key(s[0])) {
      var r := [x] + s;
      assert r[0] == x && r[1..] == s;
    } else {
      var r := [s[0]] + Insert(x, s[1..], key);
      assert r[0] == s[0] && r[1..] == Insert(x, s[1..], key);
      InsertStable(x, s[1..], key, k);
    }
  }

  /** The sort is a permutation of its input. */
  lemma {:induction false} SortPermutes<T>(s: seq<T>, key: T -> Option<int>)
    ensures multiset(SortByPriority(s, key)) == multiset(s)
  {
    if |s| > 0 {
      SortPermutes(s[1..], key);
      InsertPermutes(s[0], SortByPriority(s[1..], key), key);
      assert s == [s[0]] + s[1..];
    }
  }

  /** The sort puts every priority before the missing ones and priorities in ascending order. */
  lemma {:induction false} SortSorts<T>(s: seq<T>, key: T -> Option<int>)
    ensures SortedBy(SortByPriority(s, key), key)
  {
    if |s| > 0 {
      SortSorts(s[1..], key);
      InsertSorted(s[0], SortByPriority(s[1..], key), key);
    }
  }

  /** Stability: for every key, the items with that key keep their definition order. */
  lemma {:induction false} SortIsStable<T>(s: seq<T>, key: T -> Option<int>, k: Option<int>)
    ensures WithKey(SortByPriority(s, key), key, k) == WithKey(s, key, k)
  {
    if |s| > 0 {
      SortIsStable(s[1..], key, k);
      InsertStable(s[0], SortByPriority(s[1..], key), key, k);
    }
  }

  /**
   * Everything `sorted` promises at once: ascending order of the key, the same
   * items, and definition order kept among items of one key.
   */
  lemma SortSpec<T>(s: seq<T>, key: T -> Option<int>)
    ensures SortedBy(SortByPriority(s, key), key)
    ensures multiset(SortByPriority(s, key)) == multiset(s)
    ensures forall k :: WithKey(SortByPriority(s, key), key, k) == WithKey(s, key, k)
  {
    SortSorts(s, key);
    SortPermutes(s, key);
    forall k ensures WithKey(SortByPriority(s, key), key, k) == WithKey(s, key, k) {
      SortIsStable(s, key, k);
    }
  }

  /** `WithKey` keeps exactly the items of that key. */
  lemma {:induction false} WithKeyMembers<T>(s: seq<T>, key: T -> Option<int>, k: Option<int>, x: T)
    ensures x in WithKey(s, key, k) <==> x in s && key(x) == k
    decreases |s|
  {
    if |s| > 0 {
      WithKeyMembers(s[1..], key, k, x);
      assert WithKey(s, key, k) == (if key(s[0]) == k then [s[0]] else []) + WithKey(s[1..], key, k);
      assert x in s <==> x == s[0] || x in s[1..];
    }
  }

  /** Once an item without priority appears in a sorted sequence, every later item lacks one too. */
  lemma UnprioritizedLast<T>(s: seq<T>, key: T -> Option<int>, i: int, j: int)
    requires SortedBy(s, key)
    requires 0 <= i < j < |s| && key(s[i]).None?
    ensures key(s[j]).None?
  {
    assert Le(key(s[i]), key(s[j]));
  }

  /** Sorting keeps exactly the same members. */
  lemma SortMembers<T>(s: seq<T>, key: T -> Option<int>, x: T)
    ensures x in SortByPriority(s, key) <==> x in s
  {
    SortPermutes(s, key);
    assert x in SortByPriority(s, key) <==> x in multiset(SortByPriority(s, key));
  }
}

=== FILE: registry.dfy ===
/**
 * Named-definition lists as `data_structure` edits them: adding a name drops
 * every entry already carrying it and appends the new definition; removing a
 * name drops every entry carrying it.
 */
module Registry {

  /** `list(filter(lambda x: x._name != n, s))`. */
  function Without<T(!new)>(s: seq<T>, name: T -> string, n: string): (r: seq<T>)
    ensures forall x {:trigger x in r} :: x in r <==> x in s && name(x) != n
    ensures |r| <= |s|
  {
    if |s| == 0 then []
    else (if name(s[0]) == n then [] else [s[0]]) + Without(s[1..], name, n)
  }

  /** `len(list(filter(lambda x: x._name == n, s)))`. */
  function CountNamed<T(!new)>(s: seq<T>, name: T -> string, n: string): (c: nat)
    ensures c == 0 <==> forall x :: x in s ==> name(x) != n
    ensures c <= |s|
  {
    if |s| == 0 then 0
    else (if name(s[0]) == n then 1 else 0) + CountNamed(s[1..], name, n)
  }

  /** Adding a definition: append when the name is new, otherwise replace every entry of that name. */
  function Upsert<T(!new)>(s: seq<T>, x: T, name: T -> string): seq<T>
  {
    if CountNamed(s, name, name(x)) == 0 then s + [x]
    else Without(s, name, name(x)) + [x]
  }

  ghost predicate UniqueNames<T(!new)>(s: seq<T>, name: T -> string) {
    forall i, j | 0 <= i < j < |s| :: name(s[i]) != name(s[j])
  }

  /** Filtering out a name that nothing carries changes nothing. */
  lemma {:induction false} WithoutAbsent<T(!new)>(s: seq<T>, name: T -> string, n: string)
    requires CountNamed(s, name, n) == 0
    ensures Without(s, name, n) == s
  {
    if |s| > 0 {
      assert s[0] in s;
      WithoutAbsent(s[1..], name, n);
      assert s == [s[0]] + s[1..];
    }
  }

  /** Moving a kept entry from the filtered suffix to the untouched prefix. */
  lemma KeepInPrefix<T(!new)>(s: seq<T>, i: nat, name: T -> string, n: string)
    requires i < |s| && name(s[i]) != n
    ensures s[..i + 1] + Without(s[i + 1..], name, n) == s[..i] + Without(s[i..], name, n)
  {
    var w := Without(s[i + 1..], name, n);
    assert Without(s[i..], name, n) == [s[i]] + w by {
      assert s[i..][0] == s[i] && s[i..][1..] == s[i + 1..];
    }
    var b := s[..i];
    assert s[..i + 1] == b + [s[i]];
    assert (b + [s[i]]) + w == b + ([s[i]] + w);
  }

  /** The filter is order-preserving: it distributes over concatenation. */
  lemma {:induction false} WithoutAppend<T(!new)>(s: seq<T>, t: seq<T>, name: T -> string, n: string)
    ensures Without(s + t, name, n) == Without(s, name, n) + Without(t, name, n)
  {
    if |s| == 0 {
      assert s + t == t;
      assert Without(s, name, n) == [];
      assert [] + Without(t, name, n) == Without(t, name, n);
    } else {
      var u := s + t;
      assert u[0] == s[0] && u[1..] == s[1..] + t;
      WithoutAppend(s[1..], t, name, n);
      var head := if name(s[0]) == n then [] else [s[0]];
      var a, b := Without(s[1..], name, n), Without(t, name, n);
      assert Without(u, name, n) == head + (a + b);
      assert Without(s, name, n) == head + a;
      assert head + (a + b) == (head + a) + b;
    }
  }

  lemma {:induction false} CountAppend<T(!new)>(s: seq<T>, t: seq<T>, name: T -> string, n: string)
    ensures CountNamed(s + t, name, n) == CountNamed(s, name, n) + CountNamed(t, name, n)
  {
    if |s| == 0 {
      assert s + t == t;
    } else {
      assert (s + t)[0] == s[0];
      assert (s + t)[1..] == s[1..] + t;
      CountAppend(s[1..], t, name, n);
    }
  }

  /**
   * After adding `x`, exactly one entry carries its name and it is the last
   * one; the entries before it are the old ones without that name, in order.
   */
  lemma UpsertSpec<T(!new)>(s: seq<T>, x: T, name: T -> string)
    ensures var r := Upsert(s, x, name);
      && |r| > 0 && r[|r| - 1] == x
      && r[..|r| - 1] == Without(s, name, name(x))
      && CountNamed(r, name, name(x)) == 1
  {
    var n := name(x);
    var w := Without(s, name, n);
    if CountNamed(s, name, n) == 0 {
      WithoutAbsent(s, name, n);
    }
    var r := w + [x];
    assert Upsert(s, x, name) == r;
    assert r[..|r| - 1] == w;
    CountAppend(w, [x], name, n);
    assert CountNamed(w, name, n) == 0;
    assert CountNamed([x], name, n) == 1 by {
      assert [x][1..] == [];
    }
  }

  /** Removing a name after adding it is removing it from the original list. */
  lemma RemoveAfterUpsert<T(!new)>(s: seq<T>, x: T, name: T -> string)
    ensures Without(Upsert(s, x, name), name, name(x)) == Without(s, name, name(x))
  {
    var n := name(x);
    var w := Without(s, name, n);
    UpsertSpec(s, x, name);
    var r := Upsert(s, x, name);
    assert r == w + [x] by {
      assert r == r[..|r| - 1] + [r[|r| - 1]];
    }
    WithoutAppend(w, [x], name, n);
    assert Without([x], name, n) == [] by {
      assert [x][1..] == [];
    }
    WithoutAbsent(w, name, n);
  }

  /** Adding twice under one name keeps only the second definition (last write wins). */
  lemma UpsertTwice<T(!new)>(s: seq<T>, x: T, y: T, name: T -> string)
    requires name(x) == name(y)
    ensures Upsert(Upsert(s, x, name), y, name) == Upsert(s, y, name)
  {
    var n := name(x);
    UpsertSpec(Upsert(s, x, name), y, name);
    UpsertSpec(s, y, name);
    RemoveAfterUpsert(s, x, name);
    var a := Upsert(Upsert(s, x, name), y, name);
    var b := Upsert(s, y, name);
    assert a == a[..|a| - 1] + [y];
    assert b == b[..|b| - 1] + [y];
  }

  /** Filtering keeps names unique. */
  lemma {:induction false} WithoutUnique<T(!new)>(s: seq<T>, name: T -> string, n: string)
    requires UniqueNames(s, name)
    ensures UniqueNames(Without(s, name, n), name)
  {
    if |s| > 0 {
      WithoutUnique(s[1..], name, n);
      var w := Without(s[1..], name, n);
      if name(s[0]) != n {
        var r := [s[0]] + w;
        forall i, j | 0 <= i < j < |r|
          ensures name(r[i]) != name(r[j])
        {
          if i == 0 {
            assert r[j] in w;
            var k :| 0 <= k < |s[1..]| && s[1..][k] == r[j];
            assert s[k + 1] == r[j];
          } else {
            assert r[i] == w[i - 1] && r[j] == w[j - 1];
          }
        }
      }
    }
  }

  /** Adding keeps names unique. */
  lemma UpsertUnique<T(!new)>(s: seq<T>, x: T, name: T -> string)
    requires UniqueNames(s, name)
    ensures UniqueNames(Upsert(s, x, name), name)
  {
    var n := name(x);
    var w := Without(s, name, n);
    UpsertSpec(s, x, name);
    WithoutUnique(s, name, n);
    var r := Upsert(s, x, name);
    assert r == w + [x] by {
      assert r == r[..|r| - 1] + [r[|r| - 1]];
    }
    forall i, j | 0 <= i < j < |r|
      ensures name(r[i]) != name(r[j])
    {
      if j == |r| - 1 {
        assert r[i] == w[i];
        assert r[i] in w;
      } else {
        assert r[i] == w[i] && r[j] == w[j];
      }
    }
  }
}

=== FILE: scenarios.dfy ===
/**
 * Worked instances of the evaluation modes and of the score override, on a
 * host whose conditions are the literal strings "true", "false" and "raise".
 */
module Scenarios {
  import opened Base
  import opened DecisionTable
  import opened Collections

  /** Evaluates a condition cell to its literal truth value; the cell "raise" raises. */
  function Literal(cell: Value, x: Value, data: map<string, Value>): Option<bool> {
    if cell == VStr("true") then Some(true)
    else if cell == VStr("raise") then None
    else Some(false)
  }

  const Probe: Host := Host(
    (t, v) => Some(v),
    (f, v) => Some(v),
    (f, v, p) => Some(v),
    (b, d) => Some(d),
    Literal)

  const Data: map<string, Value> := map["A" := VInt(1)]

  function On(cell: string): seq<Condition> { [Condition("A", VStr(cell))] }

  /** R1 does not match, R2 matches with score 5, R3 would match with score 10. */
  const Example: Table := [
    Rule(VStr("R1"), Some(1), On("false")),
    Rule(VStr("R2"), Some(5), On("true")),
    Rule(VStr("R3"), Some(10), On("true"))]

  /** As `Example`, but evaluating R3 would raise. */
  const ProbeTable: Table := [Example[0], Example[1], Rule(VStr("R3"), Some(10), On("raise"))]

  lemma StopAtFirstMatch()
    ensures ApplyTable(Probe, Example, Some(Data), false) ==
            Some(TableResult(true, 5, 1, [RuleAudit(VStr("R2"), true, 5)]))
  {
    assert RuleMatches(Probe, Example[0], Some(Data)) == Some(false);
    assert RuleMatches(Probe, Example[1], Some(Data)) == Some(true);
    assert Example[1..][1..] == [Example[2]];
  }

  /** R3 is never evaluated in stop-at-first-match mode: a raising R3 changes nothing. */
  lemma FirstMatchNeverReachesLaterRules()
    ensures ApplyTable(Probe, ProbeTable, Some(Data), false) == ApplyTable(Probe, Example, Some(Data), false)
    ensures ApplyTable(Probe, ProbeTable, Some(Data), true).None?
  {
    var d := Some(Data);
    StopAtFirstMatch();
    assert RuleMatches(Probe, ProbeTable[0], d) == Some(false);
    assert RuleMatches(Probe, ProbeTable[1], d) == Some(true);
    assert RuleMatches(Probe, ProbeTable[2], d).None?;
    var t1, t2 := ProbeTable[1..], ProbeTable[2..];
    assert t1[0] == ProbeTable[1] && t1[1..] == t2 && t2[0] == ProbeTable[2];
    assert EvalRules(Probe, t1, d, false) == Some([Audit(ProbeTable[1], true)]);
    assert EvalRules(Probe, ProbeTable, d, false) == EvalRules(Probe, t1, d, false);
    assert EvalRules(Probe, t2, d, true).None?;
    assert EvalRules(Probe, t1, d, true).None?;
  }

  lemma EvaluateAll()
    ensures ApplyTable(Probe, Example, Some(Data), true) ==
            Some(TableResult(true, 15, 2, [RuleAudit(VStr("R1"), false, 1),
                                           RuleAudit(VStr("R2"), true, 5),
                                           RuleAudit(VStr("R3"), true, 10)]))
  {
    var d := Some(Data);
    assert RuleMatches(Probe, Example[0], d) == Some(false);
    assert RuleMatches(Probe, Example[1], d) == Some(true);
    assert RuleMatches(Probe, Example[2], d) == Some(true);
    var t1, t2 := Example[1..], Example[2..];
    assert t1[0] == Example[1] && t1[1..] == t2 && t2[0] == Example[2] && t2[1..] == [];
    assert EvalRules(Probe, t2[1..], d, true) == Some([]);
    var a0, a1, a2 := Audit(Example[0], false), Audit(Example[1], true), Audit(Example[2], true);
    assert [a2] + [] == [a2];
    assert EvalRules(Probe, t2, d, true) == Some([a2]);
    assert EvalRules(Probe, t1, d, true) == Some([a1] + [a2]);
    var audit := [a0, a1, a2];
    assert [a0] + ([a1] + [a2]) == audit;
    assert EvalRules(Probe, Example, d, true) == Some(audit);
    assert audit[0].score == 1 && audit[1].score == 5 && audit[2].score == 10;
    assert audit[1..][1..] == [audit[2]] && audit[1..][1..][1..] == [];
    assert MatchedScore(audit[1..][1..]) == 10;
    assert MatchedScore(audit[1..]) == 15;
    assert Hits(audit) == 2;
    assert MatchedScore(audit) == 15;
  }

  /**
   * A collection with the evaluate-all entry overridden to 100 and an inactive
   * entry: the contribution is 100, both entries are counted, and `rule_hits`
   * counts all three audited rules although only two matched.
   */
  lemma OverrideAndInactive()
    ensures var c := Collection("C", 1, true, Some([
                       Entry("T", 1, true, true, Some(100), VNull),
                       Entry("U", 2, false, false, None, VNull)]));
      ApplyCollection(Probe, c, Some(Data), Some(map["T" := Example])) ==
        Some(CollectionResult(true, 100, 2, 1, 3, [Hit("T", VNull, 100, [RuleAudit(VStr("R1"), false, 1),
                                                                        RuleAudit(VStr("R2"), true, 5),
                                                                        RuleAudit(VStr("R3"), true, 10)])]))
  {
    EvaluateAll();
    var entries := [Entry("T", 1, true, true, Some(100), VNull), Entry("U", 2, false, false, None, VNull)];
    assert entries[1..][1..] == [];
    var hit := Hit("T", VNull, 100, [RuleAudit(VStr("R1"), false, 1),
                                     RuleAudit(VStr("R2"), true, 5),
                                     RuleAudit(VStr("R3"), true, 10)]);
    var tables := Some(map["T" := Example]);
    assert EntryOutcome(Probe, entries[0], Some(Data), tables) == Some(Some(hit));
    assert EntryOutcome(Probe, entries[1], Some(Data), tables) == Some(None);
    var nil: seq<Hit> := [];
    assert RunEntries(Probe, entries[1..][1..], Some(Data), tables) == Some(nil);
    assert RunEntries(Probe, entries[1..], Some(Data), tables) == Some(nil + nil);
    assert nil + nil == nil && [hit] + nil == [hit];
    assert RunEntries(Probe, entries, Some(Data), tables) == Some([hit] + nil);
    assert [hit][1..] == [];
    assert RuleTrail([hit]) == hit.rules + [];
    assert |RuleTrail([hit])| == 3;
    assert Scores([hit]) == [100];
    assert [100][1..] == [];
    assert Sum([100]) == 100;
  }
}
